=== FILE: README.md ===
# bx.tools core, modelled in Dafny

This project models the small pieces of decision logic inside the bx.tools glue
scripts for a Bitrix site:

- **the logger factory** of `SystemLogger` (`lib/systemlogger.php`). It has:
  - the memoising `create` and its cache key;
  - the default directory and the two per-logger sinks;
  - the preset constructors and `clearCache`;
  - the unit choice of `formatBytes`;
  - log-file pruning (`cleanOldLogFiles`) and listing (`getLogFilesInfo`);
  - the `logExecution` wrapper.
- **the token service** `JwtService` (`lib/jwtservice.php`). It has:
  - the token lifetime chosen at construction;
  - the claim set `generateToken` signs;
  - the fail-closed `validateToken`;
  - the three-way outcome of `authorizeUserByToken`: missing token, invalid token, or log the user in.
- **the route loader** (`router.php`). It finds the `routes/api.php` file of every
  installed module whose ID starts with `mymoduleprefix.`. It then calls each file's
  returned closure on the routing configurator.

Everything outside this logic becomes a value or a function parameter. That covers
libraries, the framework and the filesystem:

- a directory is an immutable snapshot: missing, or its entries in `glob` order;
- `is_dir`, `file_exists` and `unlink` are oracles;
- `time()` readings are parameters;
- JWT signing and verification are an `encode` oracle and a `decode` oracle, and either may throw;
- the framework's module list is a sequence of IDs;
- the value a route file returns is an oracle.

The logger map is a `Cache` value passed through explicitly. Logger object identity is
a construction serial number.

Modules: `Php` holds the PHP semantics the others share:
- truthiness of strings;
- `int` to string conversion;
- `str_starts_with` and a one-character `str_replace`;
- `Option`, `Outcome` and `Throwable`.

The other modules are `LoggerCache`, `ByteUnits`, `LogFiles`, `ExecutionLog`,
`JwtService` and `RouteDiscovery`.

Behaviour of the code worth knowing:
- The cache key is a concatenation with no separators. So different parameter tuples can share a cache entry.
- The key is computed before the directory is defaulted. So `create(n)` and `create(n, <its default directory>)` are separate entries.
- `validateToken` catches only `\Exception`. An `\Error` thrown while decoding escapes `validateToken` and then `authorizeUserByToken` (`Propagated`).
- The `Authorization` header goes to the decoder raw. No `Bearer ` prefix is stripped. `"0"` counts as a missing header, like `""`.
- `isset($data['userId'])` is false for a `null` value. A token whose `userId` is null is an invalid token.
- The default lifetime is the code's 1200 seconds, not the docblock's 3600.
- A failed `mkdir` is not checked by the code. The model records only the directory `create` asks to be made.

## Model

| member | source | states |
|---|---|---|
| `LoggerCache.Create` | lib/systemlogger.php:32-102 | The logger returned is stored under the concatenated key. The key set grows by exactly that key and no stored logger is replaced. On a miss the logger is freshly constructed and configured for the arguments, and its directory is made exactly when `is_dir` reports it missing, whether given or defaulted. A hit makes no directory. Cache validity is preserved. |
| `LoggerCache.CacheKey` | lib/systemlogger.php:32 | The key begins with the name. After the name comes the directory when one is given, and otherwise the retention days directly. |
| `LoggerCache.CreateHitReturnsCached` | lib/systemlogger.php:32-36 | When the key is already stored, `create` returns the stored logger, leaves the cache unchanged and creates no directory. |
| `LoggerCache.CreateMissIsFresh` | lib/systemlogger.php:38-102 | On a miss, exactly one logger is constructed. It is distinct from every logger already stored. |
| `LoggerCache.CreateIsIdempotent` | lib/systemlogger.php:32-102 | A second `create` with the same arguments returns the same logger and leaves the cache as the first call left it. |
| `LoggerCache.ClearCache` | lib/systemlogger.php:251-254 | The map is empty afterwards and the cache is valid. |
| `LoggerCache.ClearThenCreateIsFresh` | lib/systemlogger.php:251-254 | After `clearCache`, the next `create` for any key constructs a logger never handed out before. |
| `LoggerCache.DefaultDirectorySinks` | lib/systemlogger.php:41-64 | With a null directory, the logger writes to `<root>/local/logs/<name with '-' turned into '_'>/<name>.log` at the requested level. It also writes `<name>-errors.log` at `Error`. Both keep `maxFiles` files. The directory is created only when it is missing. |
| `LoggerCache.KeyCollision` | lib/systemlogger.php:32 | Retention 1 with maxFiles 10 and retention 11 with maxFiles 0 are different tuples with the same key. |
| `LoggerCache.DefaultDirIsSeparateEntry` | lib/systemlogger.php:32-43 | `create(n)` and `create(n, <default directory of n>)` have different keys but resolve to the same directory. |
| `LoggerCache.TaskLoggersDistinct` | lib/systemlogger.php:122-131 | Two different task names never share a cached logger. |
| `LoggerCache.IntegrationLoggersDistinct` | lib/systemlogger.php:151-160 | Two different integration names never share a cached logger. |
| `LoggerCache.PresetKeysDistinct` | lib/systemlogger.php:108-175 | The scheduler, task, API, integration and error presets never share a logger with each other, whatever the task and integration names. |
| `LoggerCache.LevelSeparatesEntries` | lib/systemlogger.php:32 | Two calls that differ only in the level get different keys, so they never share a logger. |
| `LoggerCache.MaxFilesSeparatesEntries` | lib/systemlogger.php:32 | Two calls that differ only in the number of files kept get different keys, so they never share a logger. |
| `LoggerCache.CollidingKeyReturnsForeignLogger` | lib/systemlogger.php:32-36 | `create("ab")` followed by `create("a", "b")` returns the first logger to the second caller. That logger is not configured for the second caller's arguments. |
| `LoggerCache.CreateByTuple` | lib/systemlogger.php:32-102 | With the argument tuple as key, the logger returned on a hit or a miss is always configured for the arguments, and the cache stays faithful. |
| `ByteUnits.SelectUnit` | lib/systemlogger.php:181-187 | The division loop, run on exact reals, selects a unit index of at most 3. Every smaller unit was passed because the value exceeded the next power of 1024. Below the cap, the value is at most the next power. |
| `ByteUnits.UnitIndex` | lib/systemlogger.php:181-187 | A closed-form unit index that meets the same characterisation as the loop. |
| `ByteUnits.UnitLabel` | lib/systemlogger.php:181-187 | The printed unit is the one at the index the loop selects, and so one of B, KB, MB, GB. |
| `ByteUnits.SelectsUnitUnique` | lib/systemlogger.php:183-185 | The characterisation fixes the index, so the loop and the closed form agree on every input. |
| `ByteUnits.SmallValuesStayInBytes` | lib/systemlogger.php:183 | Any value up to 1024 stays in unit "B". This includes negative values and exactly 1024. |
| `ByteUnits.UnitIsMonotone` | lib/systemlogger.php:183-187 | A larger byte count never gets a smaller unit. |
| `LogFiles.CleanOldLogFiles` | lib/systemlogger.php:193-212 | A missing directory gives 0, no unlink attempt and no deletion. Otherwise the unlinks attempted are the expired entries' paths in `glob` order. The paths removed are the attempts that succeeded. The count returned is the number removed. |
| `LogFiles.ContainsDotLogIff` | lib/systemlogger.php:200 | A name passes the `.log` part of the `*.log*` pattern exactly when ".log" occurs somewhere in it. |
| `LogFiles.LogGlobExamples` | lib/systemlogger.php:200 | `a.log` and `a.log.1` match the pattern. `.a.log` (hidden), `a.txt` and `alog` do not. |
| `LogFiles.CandidatesMembership` | lib/systemlogger.php:199-208 | A path is attempted exactly when it belongs to an entry that matches `*.log*`, is a regular file, and has an mtime strictly below `now - retentionDays*86400`. |
| `LogFiles.SucceededMembership` | lib/systemlogger.php:205-207 | A path is counted as deleted exactly when it was attempted and its unlink succeeded. |
| `LogFiles.NotOlderThanCutoffSurvives` | lib/systemlogger.php:204 | A file whose mtime equals the cutoff, or is later, is never unlinked. |
| `LogFiles.LongerRetentionDeletesLess` | lib/systemlogger.php:199-204 | Every file whose unlink is attempted under a longer retention is also attempted under a shorter one. |
| `LogFiles.Describe` | lib/systemlogger.php:228-236 | `age_days` is the floor of the age in days. The size unit is the one `formatBytes` selects for the file size. |
| `LogFiles.InsertNewestFirst` | lib/systemlogger.php:241-243 | Inserting into a newest-first list keeps it newest first and adds exactly that entry. |
| `LogFiles.SortNewestFirst` | lib/systemlogger.php:241-243 | The sort gives a newest-first permutation of its input. |
| `LogFiles.SortKeepsArrivalOrder` | lib/systemlogger.php:241-243 | The sort is stable: entries with equal modification times keep their relative order. |
| `LogFiles.GetLogFilesInfo` | lib/systemlogger.php:217-246 | A missing directory gives []. Otherwise the result is a permutation of the descriptions of the regular matching files. It is ordered by modification time, non-increasing, and ties keep `glob` order. |
| `LogFiles.ListedMembership` | lib/systemlogger.php:226-238 | Every regular matching file is described. The listing is never longer than the directory. |
| `LogFiles.ListedComesFromListable` | lib/systemlogger.php:226-238 | Every description comes from a regular matching file of the directory. |
| `LogFiles.ListedDistinct` | lib/systemlogger.php:226-238 | When `glob` reports each name once, no description occurs twice: one entry per file. |
| `ExecutionLog.Merge` | lib/systemlogger.php:268-270 | `array_merge` on string keys takes the union of the keys, and the later array wins on a shared key. |
| `ExecutionLog.LogExecution` | lib/systemlogger.php:259-302 | The wrapper ends exactly as the callback did: it returns the same result or rethrows the same throwable. It logs a "Starting operation" record at `Info`, then one more record. On success that record is "Operation completed" at `Info` with `success` true. On failure it is "Operation failed" at `Error` with `success` false and the throwable's message, code, file and line. Other caller context keys pass through. |
| `JwtService.NewService` | lib/jwtservice.php:25-30 | If the option store has a lifetime that PHP can coerce to `int`, it wins. The constructor argument is used only when the option is unset. A stored value that cannot be coerced, such as "" or "abc", makes construction fail with a `TypeError`. |
| `JwtService.StoredLifetimeOverridesArgument` | lib/jwtservice.php:29 | Once the option is set, the constructor's lifetime argument has no effect. |
| `JwtService.DefaultConstruction` | lib/jwtservice.php:25-30 | With the option unset and the default arguments, the service signs with HS256 and a lifetime of 1200 seconds. |
| `JwtService.BuildClaims` | lib/jwtservice.php:40-47 | `iss` and `aud` are both the host. `iat` is the first clock reading and `nbf` the second. `exp` is the third reading plus the lifetime. `data` is the caller's array unchanged. So `exp - iat` is the lifetime plus the drift between the first and third readings. |
| `JwtService.SingleReadingClaims` | lib/jwtservice.php:40-47 | With a single clock reading `now`, `iat` and `nbf` equal `now` and `exp` equals `now` plus the lifetime. |
| `JwtService.IssuedWindowIsOrdered` | lib/jwtservice.php:40-47 | With a non-negative lifetime and a monotone clock, `iat <= nbf <= exp`. |
| `JwtService.GenerateToken` | lib/jwtservice.php:38-50 | The token is the encoder's output for that claim set (host as issuer and audience, the three readings, expiry after the lifetime, the caller's data), signed with the service's own key and algorithm. When the encoder throws, the same throw reaches the caller. |
| `JwtService.CastToArray` | lib/jwtservice.php:62 | `(array)` on the `data` claim: null or absent gives [], an array is kept, and a scalar is wrapped at key 0. |
| `JwtService.ValidateToken` | lib/jwtservice.php:58-66 | After a successful decode, the result is the `data` claim cast to an array. The result is null exactly when the decoder throws an `\Exception`. Anything that escapes is the decoder's own `\Error`. |
| `JwtService.ExceptionsBecomeNull` | lib/jwtservice.php:60-65 | When the decoder throws, `validateToken` throws exactly when the throwable is an `\Error`. |
| `JwtService.IssueThenValidate` | lib/jwtservice.php:38-66 | If the encoder returns a token and the decoder accepts it, validating that token returns the caller's array. |
| `JwtService.AuthorizeUserByToken` | lib/jwtservice.php:71-86 | Every halt is a 401, and only an `\Error` can escape. Under a truthy header, an `\Error` thrown during validation escapes unchanged, since nothing here catches it. The decoder is called once with the raw header when the header is truthy, and never otherwise. |
| `JwtService.MissingTokenIffFalsyHeader` | lib/jwtservice.php:73-85 | The response is "JWT token is required." exactly when the header is absent, "" or "0". In that case the decoder is never called. |
| `JwtService.AuthorizedIffValidUserId` | lib/jwtservice.php:75-79 | A user is authorised exactly when the header is truthy and validation returns a non-empty array with `userId` set. The id authorised is that `userId`. |
| `JwtService.InvalidTokenCases` | lib/jwtservice.php:76-82 | Under a truthy header, the response is "Invalid token." exactly when validation returns, without throwing, null, an empty array, or an array without a set `userId`. |
| `JwtService.TruthinessCases` | lib/jwtservice.php:73-85 | Concrete cases: a "0" header is missing. Empty data, a null `userId` and scalar data are invalid. `Bearer x` reaches the decoder unchanged. |
| `JwtService.UnauthorizedResponse` | lib/jwtservice.php:93-98 | The response has status line `HTTP/1.0 401 Unauthorized` and the message as its body. |
| `RouteDiscovery.GetRoutePaths` | router.php:5-21 | The nested loops over modules and prefixes return the route files of the contributing modules, in module order. |
| `RouteDiscovery.ContributionsMembership` | router.php:9-18 | A path is returned exactly when it is `<root>/local/modules/<ID>/routes/api.php` for a module whose ID starts with `mymoduleprefix.` and whose file exists. |
| `RouteDiscovery.ContributionsAppend` | router.php:9-20 | Output order follows the module list: the result for `a + b` is the result for `a` followed by the result for `b`. |
| `RouteDiscovery.AtMostOnePerModule` | router.php:9-18 | There are never more paths than modules. |
| `RouteDiscovery.PrefixNeedsDot` | router.php:6-11 | `mymoduleprefix` and `mymoduleprefixx` never contribute: the dot after the prefix is required. |
| `RouteDiscovery.DottedModuleContributes` | router.php:11-14 | `mymoduleprefix.api` contributes exactly when its route file exists. |
| `RouteDiscovery.RoutePathInjective` | router.php:12 | Different module IDs have different route files. |
| `RouteDiscovery.ContributionsDistinct` | router.php:9-14 | Modules with distinct IDs give distinct route files. |
| `RouteDiscovery.Configure` | router.php:23-31 | Afterwards every route file counts as included. There are never more calls than listed routes. |
| `RouteDiscovery.OneClosurePerFile` | router.php:24-28 | At most one closure per route file: the calls never outnumber the distinct files not yet included, however often a file is listed. |
| `RouteDiscovery.FreshRoutesInvokeTheirClosures` | router.php:24-29 | For distinct route files not yet included, the configurator receives exactly the closures they return, in order. Other return values are skipped. |
| `RouteDiscovery.IncludedRoutesInvokeNothing` | router.php:25-28 | A file already included yields no closure, so nothing is invoked. |
| `RouteDiscovery.SecondRunInvokesNothing` | router.php:23-31 | Running the loader a second time in the same process registers nothing more. |
| `RouteDiscovery.LoaderInvokesContributedClosures` | router.php:5-31 | Take a fresh process and installed modules with distinct IDs. The configurator is invoked with the closure of each contributing module's route file, in module order, and with nothing else. |
| `Php.ReplaceChar` | lib/systemlogger.php:42 | `str_replace('-', '_', name)` keeps the length, changes only the hyphens, and leaves none behind. |
| `Php.IntToString` | lib/systemlogger.php:32 | The decimal text an `int` gets in string context parses back to the number. This holds for negative values, with their leading `-`, as well. |
| `Php.IntToStringInjective` | lib/systemlogger.php:32 | Distinct integers give distinct text in the key. |

## Findings

| source | as written | input that shows it | evidently intended | confidence | as-written member | corrected member |
|---|---|---|---|---|---|---|
| lib/systemlogger.php:32 | The cache key concatenates name, directory, retention, file count and level with no separator. | `create('ab')` then `create('a', 'b')` | A cache hit returns a logger configured for the requested arguments. | medium; not executed | `LoggerCache.CollidingKeyReturnsForeignLogger` | `LoggerCache.CreateByTuple` |

`LoggerCache.Create` keeps the behaviour as written, since that is what the program
does. `LoggerCache.CreateByTuple` is the corrected factory, keyed by the whole tuple.

## Left out

- The `md5` hash of the cache key. The concatenated string itself is the key, so two keys are equal exactly when their strings are.
- Monolog internals: file rotation, line formats, the process-id and memory processors (including the `class_exists` fallback), and record dispatch to handlers. Only each sink's path, file count and minimum level are recorded.
- A failing `mkdir` and the permissions it uses. Only the directory `create` asks for is recorded.
- The mantissa `formatBytes` prints, that is the float division and `round(..., precision)`. Also `memory_get_usage`, `microtime` and `createContext`, which only read the environment.
- ByteUnits.SelectUnit: only the unit is modelled, not the rounded number printed before it.
- ExecutionLog.LogExecution: the values of `memory_before`, `execution_time_ms`, `memory_used` and `trace` are left unmodelled. Only their keys are present.
- ExecutionLog.Merge: integer keys in a context, which `array_merge` renumbers, are not modelled. Contexts have string keys only.
- Exceptions thrown by the logger itself inside `logExecution`. These are Monolog behaviour.
- LogFiles.GetLogFilesInfo: the sort compares the raw `filemtime` values. It does not compare `strtotime(date(...))` of them. The two agree except for local times made ambiguous by a daylight-saving change.
- LogFiles.GetLogFilesInfo: the `created` and `modified` fields are kept as raw timestamps, not formatted with `date`.
- `glob` failing and returning `false`. The order `glob` reports entries in is taken as given.
- 64-bit overflow of `retentionDays * 86400` and of `time() + lifetime`. Integers are unbounded here.
- JWT signing, signature checking and the `exp`/`nbf`/`iat` window checks. They belong to the decoder oracle, together with the construction of the library's `Key` object. So "a token validated after `exp` is invalid" and "a token signed with another secret is invalid" are properties of the library, not of this code.
- JwtService.NewService: PHP's rules for which stored strings coerce to an `int` property are not modelled. A stored value is given as already classified as coercible or not.
- The JSON list/object distinction inside the `data` claim. Integer keys are written as their decimal text.
- The return value of `$USER->Authorize`, and `header`/`echo`/`die`, which become the `Authorized` and `Halted` outcomes.
- `login.php` (framework session bootstrap) and `bx24.task.php` (a webhook POST). Neither has logic of its own.
- Concurrent requests sharing the logger cache. Each PHP request runs in its own process.
- The scheduler, API and error logger presets are modelled only as parameter tuples (`SchedulerArgs`, `ApiArgs`, `ErrorArgs`). They are pure configuration. Only their mutual distinctness is stated.
- `create()` called with no name at all is `create('campus-services')`, so it is covered by `DefaultArgs`. There is no separate member for it.
- LogFiles.GetLogFilesInfo: one clock reading serves every file. The code reads `time()` again for each file inside its loop, so within one listing the ages can differ by however long the loop takes.
- Throws from the route loader. `include_once` of a route file can throw (a parse error, or anything the file raises), and so can the returned closure. Either throw ends the loop and skips the later routes. The model has every include and every call return.

=== FILE: byte_units.dfy ===
/**
 Unit selection of `formatBytes`: the loop divides by 1024 while the value is above
 1024 and a larger unit remains. Only the chosen unit is modelled; the rounded
 mantissa printed in front of it is floating-point formatting and is left out.
 */
module ByteUnits {

  const Units: seq<string> := ["B", "KB", "MB", "GB"]

  /** The index of the largest unit. */
  const MaxUnit: nat := |Units| - 1

  function Pow1024(k: nat): (r: nat)
    ensures r >= 1
  {
    if k == 0 then 1 else 1024 * Pow1024(k - 1)
  }

  /** The value above which `formatBytes` moves past unit `j`. */
  function Threshold(j: nat): nat {
    Pow1024(j + 1)
  }

  /**
   `i` is the unit `formatBytes` settles on for `bytes`: every smaller unit was left
   because the value exceeded the next power of 1024, and unless `i` is the cap the
   value fits under the next power.
   */
  predicate SelectsUnit(bytes: int, i: nat) {
    && i <= MaxUnit
    && (forall j: nat :: j < i ==> bytes > Threshold(j))
    && (i < MaxUnit ==> bytes <= Threshold(i))
  }

  lemma ThresholdValues()
    ensures Threshold(0) == 1024 && Threshold(1) == 1024 * 1024 && Threshold(2) == 1024 * 1024 * 1024
  {
    assert Pow1024(1) == 1024;
    assert Pow1024(2) == 1024 * 1024;
  }

  /** Comparing the scaled value with 1024 is comparing the original value with the next threshold. */
  lemma ScaledComparison(b: real, p: real)
    requires p > 0.0
    ensures b / p > 1024.0 <==> b > 1024.0 * p
  {
  }

  lemma ScaleStep(b: real, p: real)
    requires p > 0.0
    ensures (b / p) / 1024.0 == b / (1024.0 * p)
  {
  }

  /**
   The `for` loop of `formatBytes`, on exact reals. The divisions are by a power of two
   and every threshold is at most 2^30, so the comparisons agree with PHP's.
   */
  method SelectUnit(bytes: int) returns (i: nat)
    ensures SelectsUnit(bytes, i)
  {
    var scaled: real := bytes as real;
    i := 0;
    while scaled > 1024.0 && i < |Units| - 1
      invariant i <= MaxUnit
      invariant scaled == bytes as real / Pow1024(i) as real
      invariant forall j: nat :: j < i ==> bytes > Threshold(j)
    {
      ScaledComparison(bytes as real, Pow1024(i) as real);
      ScaleStep(bytes as real, Pow1024(i) as real);
      scaled := scaled / 1024.0;
      i := i + 1;
    }
    ScaledComparison(bytes as real, Pow1024(i) as real);
  }

  /** A closed form of the unit index, independent of the loop. */
  function UnitIndex(bytes: int): (i: nat)
    ensures SelectsUnit(bytes, i)
  {
    ThresholdValues();
    if bytes <= 1024 then 0
    else if bytes <= 1024 * 1024 then 1
    else if bytes <= 1024 * 1024 * 1024 then 2
    else 3
  }

  /** The unit label `formatBytes` prints. */
  function UnitLabel(bytes: int): (u: string)
    ensures u in Units
    ensures exists i: nat :: SelectsUnit(bytes, i) && u == Units[i]
  {
    Units[UnitIndex(bytes)]
  }

  /** The choice is determined: the loop and the closed form always agree. */
  lemma SelectsUnitUnique(bytes: int, i: nat, k: nat)
    requires SelectsUnit(bytes, i) && SelectsUnit(bytes, k)
    ensures i == k
  {
  }

  /** Anything up to 1024, negative numbers and exactly 1024 included, stays in bytes. */
  lemma SmallValuesStayInBytes(bytes: int)
    requires bytes <= 1024
    ensures forall i: nat :: SelectsUnit(bytes, i) ==> i == 0 && Units[i] == "B"
  {
    forall i: nat | SelectsUnit(bytes, i)
      ensures i == 0
    {
      if i > 0 {
        assert bytes > Threshold(0);
        ThresholdValues();
      }
    }
  }

  /** A larger size never gets a smaller unit. */
  lemma UnitIsMonotone(b1: int, b2: int)
    requires b1 <= b2
    ensures UnitIndex(b1) <= UnitIndex(b2)
  {
  }
}

=== FILE: execution_log.dfy ===
/**
 `logExecution`: log the start of an operation, run it, then log its completion and
 return its result, or log its failure and rethrow the very same throwable.

 The callback is represented by the outcome it produces. Context values derived from
 the clock, the memory counters or the stack trace are kept as keys with an
 `Unmodelled` value.
 */
module ExecutionLog {
  import opened Php
  import opened LoggerCache

  /** A value placed in a record's context. */
  datatype ContextValue = CBool(b: bool) | CInt(i: int) | CStr(s: string) | Unmodelled

  /** A context array with string keys. */
  type Context = map<string, ContextValue>

  /** One call on the logger: its level, message and context. */
  datatype LogRecord = LogRecord(level: Level, message: string, context: Context)

  /** What `logExecution` leaves behind: the records it logged and how it ended. */
  datatype Execution<T> = Execution(records: seq<LogRecord>, outcome: Outcome<T>)

  /** The keys `logExecution` adds to the caller's context on the failure path. */
  const FailureKeys: set<string> :=
    {"execution_time_ms", "memory_used", "error", "error_code", "file", "line", "trace", "success"}

  /** `array_merge(context, extra)` for string keys: the later array wins on a shared key. */
  function Merge(context: Context, extra: Context): (m: Context)
    ensures m.Keys == context.Keys + extra.Keys
    ensures forall k :: k in extra ==> m[k] == extra[k]
    ensures forall k :: k in context && k !in extra ==> m[k] == context[k]
  {
    context + extra
  }

  /** The failure record's context reports the throwable's message, code, file and line. */
  predicate Reports(c: Context, e: Throwable) {
    && "error" in c && c["error"] == CStr(e.message)
    && "error_code" in c && c["error_code"] == CInt(e.code)
    && "file" in c && c["file"] == CStr(e.file)
    && "line" in c && c["line"] == CInt(e.line)
  }

  /** Every caller key that `logExecution` does not set itself passes through unchanged. */
  predicate PassesThrough(context: Context, c: Context) {
    forall k :: k in context && k !in FailureKeys && k != "memory_before" ==> k in c && c[k] == context[k]
  }

  function StartRecord(operationName: string, context: Context): (rec: LogRecord)
    ensures rec.level == Info && PassesThrough(context, rec.context)
  {
    LogRecord(Info, "Starting operation: " + operationName, Merge(context, map["memory_before" := Unmodelled]))
  }

  function CompletedRecord(operationName: string, context: Context): (rec: LogRecord)
    ensures rec.level == Info && PassesThrough(context, rec.context)
    ensures "success" in rec.context && rec.context["success"] == CBool(true)
  {
    LogRecord(Info, "Operation completed: " + operationName,
      Merge(context, map["execution_time_ms" := Unmodelled, "memory_used" := Unmodelled, "success" := CBool(true)]))
  }

  /** What the failure path adds to the caller's context. */
  function FailureExtra(e: Throwable): (x: Context)
    ensures x.Keys == FailureKeys
    ensures Reports(x, e) && x["success"] == CBool(false)
  {
    map[
      "execution_time_ms" := Unmodelled,
      "memory_used" := Unmodelled,
      "error" := CStr(e.message),
      "error_code" := CInt(e.code),
      "file" := CStr(e.file),
      "line" := CInt(e.line),
      "trace" := Unmodelled,
      "success" := CBool(false)]
  }

  function FailedRecord(operationName: string, context: Context, e: Throwable): (rec: LogRecord)
    ensures rec.level == Error && PassesThrough(context, rec.context)
    ensures "success" in rec.context && rec.context["success"] == CBool(false)
    ensures FailureKeys <= rec.context.Keys && Reports(rec.context, e)
  {
    LogRecord(Error, "Operation failed: " + operationName, Merge(context, FailureExtra(e)))
  }

  /**
   `logExecution(logger, operationName, callback, context)`. The wrapper never changes how
   the callback ended: a result is passed back and a throwable of either family is
   rethrown unchanged. The second record's `success` flag tells the two apart whatever
   the caller put under that key, and a failure record carries the throwable's
   message, code, file and line.
   */
  function LogExecution<T>(operationName: string, context: Context, callback: Outcome<T>): (r: Execution<T>)
    ensures r.outcome == callback
    ensures |r.records| == 2
    ensures r.records[0].level == Info && r.records[0].message == "Starting operation: " + operationName
    ensures "success" in r.records[1].context && r.records[1].context["success"] == CBool(callback.Returned?)
    ensures r.records[1].level == (if callback.Returned? then Info else Error)
    ensures callback.Threw? ==>
      && r.records[1].message == "Operation failed: " + operationName
      && FailureKeys <= r.records[1].context.Keys
      && Reports(r.records[1].context, callback.error)
    ensures callback.Returned? ==> r.records[1].message == "Operation completed: " + operationName
    ensures PassesThrough(context, r.records[0].context) && PassesThrough(context, r.records[1].context)
  {
    var start := StartRecord(operationName, context);
    match callback
    case Returned(v) => Execution([start, CompletedRecord(operationName, context)], callback)
    case Threw(e) => Execution([start, FailedRecord(operationName, context, e)], callback)
  }
}

=== FILE: jwt_service.dfy ===
/**
 The token service: the lifetime chosen at construction, the claim set `generateToken`
 signs, the fail-closed `validateToken`, and the three-way decision of
 `authorizeUserByToken` (missing token, invalid token, or log the user in).

 Signing and verification (RFC 7519 tokens signed as in RFC 7515) are oracles: `encode`
 turns a claim set into a token or throws, and `decode` either yields the token's `data` claim or
 throws. The session call that logs the user in is represented by the `Authorized`
 outcome, and `header`/`echo`/`die` by the `Halted` outcome.
 */
module JwtService {
  import opened Php

  /** A decoded JSON value; arrays and objects alike become string-keyed PHP arrays. */
  datatype Json = JNull | JBool(b: bool) | JInt(i: int) | JStr(s: string) | JArray(entries: map<string, Json>)

  /** A PHP array with string keys (integer keys are written as their decimal text). */
  type PhpArray = map<string, Json>

  const DefaultAlgorithm: string := "HS256"
  const DefaultTokenLifetime: int := 1200

  /**
   The option store's value for the lifetime, classified by whether PHP can coerce it into
   an `int` property: "1800" can, and so can "1800.5" (truncated to 1800); "" and "abc" cannot.
   */
  datatype StoredSetting = Coercible(n: int) | NotCoercible(raw: string)

  datatype Service = Service(secretKey: string, algorithm: string, tokenLifetime: int)

  /** Construction succeeds, or assigning the stored value to the `int` property throws a `TypeError`. */
  datatype Construction = Constructed(service: Service) | LifetimeTypeError(raw: string)

  /**
   The constructor: the option store's `session_time` wins, and the constructor's
   lifetime is only the fallback when the option is not set.
   */
  function NewService(secretKey: string, algorithm: string, tokenLifetime: int, stored: Option<StoredSetting>)
    : (r: Construction)
    ensures r.Constructed? <==> !(stored.Some? && stored.value.NotCoercible?)
    ensures r.Constructed? ==> r.service.secretKey == secretKey && r.service.algorithm == algorithm
    ensures r.Constructed? && stored.Some? ==> r.service.tokenLifetime == stored.value.n
    ensures r.Constructed? && stored.None? ==> r.service.tokenLifetime == tokenLifetime
  {
    match stored
    case None => Constructed(Service(secretKey, algorithm, tokenLifetime))
    case Some(Coercible(n)) => Constructed(Service(secretKey, algorithm, n))
    case Some(NotCoercible(raw)) => LifetimeTypeError(raw)
  }

  /** Once the option is set, the constructor argument has no effect at all. */
  lemma StoredLifetimeOverridesArgument(secretKey: string, algorithm: string, l1: int, l2: int, n: int)
    ensures NewService(secretKey, algorithm, l1, Some(Coercible(n))) == NewService(secretKey, algorithm, l2, Some(Coercible(n)))
    ensures NewService(secretKey, algorithm, l1, Some(Coercible(n))).service.tokenLifetime == n
  {
  }

  /** `new JwtService(secretKey)` with the option unset: HS256 and a lifetime of 1200 seconds. */
  lemma DefaultConstruction(secretKey: string)
    ensures NewService(secretKey, DefaultAlgorithm, DefaultTokenLifetime, None)
         == Constructed(Service(secretKey, "HS256", 1200))
  {
  }

  // ----- generateToken -----

  /** The registered claims plus the caller's data; a missing host header gives null issuer and audience. */
  datatype Claims = Claims(iss: Option<string>, aud: Option<string>, iat: int, nbf: int, exp: int, data: Json)

  /**
   The claim set `generateToken` builds. `time()` is read three times, once for each of
   `iat`, `nbf` and `exp`, and the readings are passed in that order.
   */
  function BuildClaims(s: Service, host: Option<string>, iatReading: int, nbfReading: int, expReading: int,
                       data: PhpArray): (c: Claims)
    ensures c.iss == c.aud == host
    ensures c.data == JArray(data)
    ensures c.iat == iatReading && c.nbf == nbfReading && c.exp == expReading + s.tokenLifetime
    ensures c.exp - c.iat == s.tokenLifetime + (expReading - iatReading)
  {
    Claims(host, host, iatReading, nbfReading, expReading + s.tokenLifetime, JArray(data))
  }

  /**
   `generateToken`: the token is what the encoder makes of the host as issuer and
   audience, the three clock readings (the last one plus the lifetime) and the caller's
   data, signed with the service's own key and algorithm. There is no handler, so an
   encoder throw (an unsupported algorithm, data JSON cannot encode) reaches the caller
   unchanged.
   */
  function GenerateToken(s: Service, host: Option<string>, iatReading: int, nbfReading: int, expReading: int,
                         data: PhpArray, encode: (Claims, string, string) -> Outcome<string>): (token: Outcome<string>)
    ensures token == encode(Claims(host, host, iatReading, nbfReading, expReading + s.tokenLifetime, JArray(data)),
                            s.secretKey, s.algorithm)
  {
    encode(BuildClaims(s, host, iatReading, nbfReading, expReading, data), s.secretKey, s.algorithm)
  }

  /** If the three readings agree, the token is issued and valid from `now` and expires after exactly the lifetime. */
  lemma SingleReadingClaims(s: Service, host: Option<string>, now: int, data: PhpArray)
    ensures var c := BuildClaims(s, host, now, now, now, data);
      c.iat == now && c.nbf == now && c.exp == now + s.tokenLifetime
  {
  }

  /** With a non-negative lifetime and a clock that does not run backwards, the validity window is not empty. */
  lemma IssuedWindowIsOrdered(s: Service, host: Option<string>, t1: int, t2: int, t3: int, data: PhpArray)
    requires t1 <= t2 <= t3
    requires s.tokenLifetime >= 0
    ensures var c := BuildClaims(s, host, t1, t2, t3, data);
      c.iat <= c.nbf <= c.exp
  {
  }

  // ----- validateToken -----

  /** The decoder oracle's answer: the `data` claim of the verified token (absent or present), or a throw. */
  datatype DecodeResult = Decoded(data: Option<Json>) | Raised(error: Throwable)

  /** `(array)` applied to the `data` claim: null gives [], an array stays, a scalar is wrapped at key 0. */
  function CastToArray(v: Option<Json>): (a: PhpArray)
    ensures v.Some? && v.value.JArray? ==> a == v.value.entries
    ensures v.None? || v == Some(JNull) ==> a == map[]
    ensures v.Some? && !v.value.JArray? && v.value != JNull ==> a == map["0" := v.value]
  {
    match v
    case None => map[]
    case Some(JNull) => map[]
    case Some(JArray(m)) => m
    case Some(other) => map["0" := other]
  }

  /**
   `validateToken`: returns the token's data as an array, or null when the decoder throws
   an `\Exception`. Only an `\Error` escapes, and it is the decoder's own.
   */
  function ValidateToken(s: Service, token: string, decode: (string, string, string) -> DecodeResult)
    : (r: Outcome<Option<PhpArray>>)
    ensures r.Threw? ==> r.error.kind == ErrorKind
    ensures r.Threw? ==> decode(token, s.secretKey, s.algorithm) == Raised(r.error)
    ensures r == Returned(None) <==> (decode(token, s.secretKey, s.algorithm).Raised?
                                     && decode(token, s.secretKey, s.algorithm).error.kind == ExceptionKind)
    ensures decode(token, s.secretKey, s.algorithm).Decoded? ==>
      r == Returned(Some(CastToArray(decode(token, s.secretKey, s.algorithm).data)))
  {
    var decoded := decode(token, s.secretKey, s.algorithm);
    match decoded
    case Decoded(data) => Returned(Some(CastToArray(data)))
    case Raised(e) => if e.kind.ExceptionKind? then Returned(None) else Threw(e)
  }

  /** Fail-closed: every `\Exception` from verification (bad signature, expired, malformed, ...) becomes null. */
  lemma ExceptionsBecomeNull(s: Service, token: string, decode: (string, string, string) -> DecodeResult)
    requires decode(token, s.secretKey, s.algorithm).Raised?
    ensures ValidateToken(s, token, decode).Threw? <==> decode(token, s.secretKey, s.algorithm).error.kind == ErrorKind
  {
  }

  /**
   Issue then validate: when the decoder accepts what the encoder produced (same key and
   algorithm, inside the validity window), validation gives back the caller's array.
   */
  lemma IssueThenValidate(s: Service, host: Option<string>, t1: int, t2: int, t3: int, data: PhpArray,
                          encode: (Claims, string, string) -> Outcome<string>,
                          decode: (string, string, string) -> DecodeResult)
    requires var c := BuildClaims(s, host, t1, t2, t3, data);
      && encode(c, s.secretKey, s.algorithm).Returned?
      && decode(encode(c, s.secretKey, s.algorithm).value, s.secretKey, s.algorithm) == Decoded(Some(c.data))
    ensures GenerateToken(s, host, t1, t2, t3, data, encode).Returned?
    ensures ValidateToken(s, GenerateToken(s, host, t1, t2, t3, data, encode).value, decode) == Returned(Some(data))
  {
  }

  // ----- authorizeUserByToken -----

  const MissingTokenMessage: string := "JWT token is required."
  const InvalidTokenMessage: string := "Invalid token."
  const UnauthorizedStatusLine: string := "HTTP/1.0 401 Unauthorized"

  /** What `unauthorizedResponse` sends before it ends the request. */
  datatype Response = Response(statusLine: string, body: string)

  function UnauthorizedResponse(message: string): (r: Response)
    ensures r.statusLine == UnauthorizedStatusLine && r.body == message
  {
    Response(UnauthorizedStatusLine, message)
  }

  /** The user id handed to the session, a response after which the script dies, or an escaping `\Error`. */
  datatype AuthOutcome = Authorized(userId: Json) | Halted(response: Response) | Propagated(error: Throwable)

  /** The outcome together with every token the decoder was asked to verify. */
  datatype AuthRun = AuthRun(outcome: AuthOutcome, decoderCalls: seq<string>)

  /** `isset($data['userId'])`: the key is present and not null. */
  predicate HasUserId(data: PhpArray) {
    "userId" in data && data["userId"] != JNull
  }

  /** `$data && isset($data['userId'])`: a non-null, non-empty array with a user id. */
  predicate Accepts(data: Option<PhpArray>) {
    data.Some? && |data.value| > 0 && HasUserId(data.value)
  }

  /** `authorizeUserByToken`, with `header` the `Authorization` header if the request has one. */
  function AuthorizeUserByToken(s: Service, header: Option<string>, decode: (string, string, string) -> DecodeResult)
    : (r: AuthRun)
    ensures r.outcome.Halted? ==> r.outcome.response.statusLine == UnauthorizedStatusLine
    ensures r.outcome.Propagated? ==> r.outcome.error.kind == ErrorKind
    ensures StringTruthy(header.GetOr("")) && ValidateToken(s, header.value, decode).Threw? ==>
      r.outcome == Propagated(ValidateToken(s, header.value, decode).error)
    ensures r.decoderCalls == (if StringTruthy(header.GetOr("")) then [header.value] else [])
  {
    var jwt := header.GetOr("");
    if StringTruthy(jwt) then
      match ValidateToken(s, jwt, decode)
      case Threw(e) => AuthRun(Propagated(e), [jwt])
      case Returned(data) =>
        if Accepts(data) then AuthRun(Authorized(data.value["userId"]), [jwt])
        else AuthRun(Halted(UnauthorizedResponse(InvalidTokenMessage)), [jwt])
    else
      AuthRun(Halted(UnauthorizedResponse(MissingTokenMessage)), [])
  }

  /** An absent or falsy header ("" or "0") is a missing token, and the decoder is never consulted. */
  lemma MissingTokenIffFalsyHeader(s: Service, header: Option<string>, decode: (string, string, string) -> DecodeResult)
    ensures var r := AuthorizeUserByToken(s, header, decode);
      (r.outcome == Halted(Response(UnauthorizedStatusLine, MissingTokenMessage))) <==> !StringTruthy(header.GetOr(""))
    ensures !StringTruthy(header.GetOr("")) ==> AuthorizeUserByToken(s, header, decode).decoderCalls == []
  {
  }

  /**
   A user is logged in exactly when the header is truthy and validation returns a non-empty
   array whose `userId` is set, and then it is that `userId`.
   */
  lemma AuthorizedIffValidUserId(s: Service, header: Option<string>, decode: (string, string, string) -> DecodeResult)
    ensures var r := AuthorizeUserByToken(s, header, decode);
      r.outcome.Authorized? <==>
        (&& header.Some? && StringTruthy(header.value)
         && ValidateToken(s, header.value, decode).Returned?
         && Accepts(ValidateToken(s, header.value, decode).value))
    ensures var r := AuthorizeUserByToken(s, header, decode);
      r.outcome.Authorized? ==> r.outcome.userId == ValidateToken(s, header.value, decode).value.value["userId"]
  {
  }

  /**
   Under a truthy header, the answer is "Invalid token." exactly when validation returns
   (does not throw) null, an empty array, or an array without a set `userId`.
   */
  lemma InvalidTokenCases(s: Service, jwt: string, decode: (string, string, string) -> DecodeResult)
    requires StringTruthy(jwt)
    ensures AuthorizeUserByToken(s, Some(jwt), decode).outcome == Halted(Response(UnauthorizedStatusLine, InvalidTokenMessage))
        <==> ValidateToken(s, jwt, decode).Returned? && !Accepts(ValidateToken(s, jwt, decode).value)
  {
  }

  /** Concrete cases: a "0" header is missing; data that is empty, a null `userId`, or a scalar is invalid. */
  lemma TruthinessCases(s: Service)
    ensures AuthorizeUserByToken(s, Some("0"), (t, k, a) => Decoded(Some(JArray(map["userId" := JInt(1)])))).outcome
         == Halted(Response(UnauthorizedStatusLine, MissingTokenMessage))
    ensures AuthorizeUserByToken(s, Some("x"), (t, k, a) => Decoded(Some(JArray(map[])))).outcome
         == Halted(Response(UnauthorizedStatusLine, InvalidTokenMessage))
    ensures AuthorizeUserByToken(s, Some("x"), (t, k, a) => Decoded(Some(JArray(map["userId" := JNull])))).outcome
         == Halted(Response(UnauthorizedStatusLine, InvalidTokenMessage))
    ensures AuthorizeUserByToken(s, Some("x"), (t, k, a) => Decoded(Some(JInt(7)))).outcome
         == Halted(Response(UnauthorizedStatusLine, InvalidTokenMessage))
    ensures AuthorizeUserByToken(s, Some("Bearer x"), (t, k, a) => Decoded(None)).decoderCalls == ["Bearer x"]
  {
    assert StringTruthy("x");
    assert StringTruthy("Bearer x");
    assert "userId" !in map["0" := JInt(7)];
  }
}

=== FILE: log_files.dfy ===
/**
 Log-file housekeeping: `cleanOldLogFiles` deletes expired log files and counts the
 deletions, `getLogFilesInfo` describes the log files of a directory, newest first.

 The filesystem is an immutable snapshot: a directory is missing or holds entries in
 the order `glob` reports them, and `unlink` is an oracle saying whether a deletion
 succeeds.
 */
module LogFiles {
  import opened Php
  import ByteUnits

  /** One directory entry: `is_file`, `filesize`, `filectime` and `filemtime` of it. */
  datatype DirEntry = DirEntry(name: string, isFile: bool, size: int, ctime: int, mtime: int)

  /** `is_dir` false, or the entries of the directory in `glob` order. */
  datatype Directory = Missing | Present(entries: seq<DirEntry>)

  const SecondsPerDay: int := 24 * 60 * 60

  predicate ContainsDotLog(s: string)
    decreases |s|
  {
    |s| >= 4 && (s[..4] == ".log" || ContainsDotLog(s[1..]))
  }

  /**
   The pattern `*.log*`: the name contains ".log". A leading `*` does not match a
   leading period, so hidden files are never matched.
   */
  predicate MatchesLogGlob(name: string) {
    |name| > 0 && name[0] != '.' && ContainsDotLog(name)
  }

  /** ".log" occurs in `s` at position `i`. */
  predicate DotLogAt(s: string, i: nat) {
    i + 4 <= |s| && s[i..i + 4] == ".log"
  }

  /** `ContainsDotLog` is exactly "'.log' occurs somewhere": the `*` on each side matches any text. */
  lemma {:induction false} ContainsDotLogIff(s: string)
    ensures ContainsDotLog(s) <==> exists i: nat :: DotLogAt(s, i)
    decreases |s|
  {
    if |s| >= 4 {
      assert s[..4] == s[0..4];
      if s[..4] == ".log" {
        assert DotLogAt(s, 0);
      }
      ContainsDotLogIff(s[1..]);
      if exists i: nat :: DotLogAt(s[1..], i) {
        var i: nat :| DotLogAt(s[1..], i);
        assert s[i + 1..i + 5] == s[1..][i..i + 4];
        assert DotLogAt(s, i + 1);
      }
      if exists i: nat :: DotLogAt(s, i) {
        var i: nat :| DotLogAt(s, i);
        if i > 0 {
          assert s[1..][i - 1..i + 3] == s[i..i + 4];
          assert DotLogAt(s[1..], i - 1);
        }
      }
    }
  }

  /** Rotated and compressed logs match; hidden files and other extensions do not. */
  lemma LogGlobExamples()
    ensures MatchesLogGlob("a.log") && MatchesLogGlob("a.log.1")
    ensures !MatchesLogGlob(".a.log") && !MatchesLogGlob("a.txt") && !MatchesLogGlob("alog")
  {
    assert "a.log"[1..][..4] == ".log";
    assert "a.log.1"[1..][..4] == ".log";
    assert "a.txt"[..4][0] != ".log"[0];
    assert "a.txt"[1..][..4][1] != ".log"[1];
    assert "a.txt"[1..][1..] == "txt";
  }

  /** The path `glob` reports for an entry of `dir`. */
  function EntryPath(dir: string, name: string): string {
    dir + "/" + name
  }

  lemma EntryPathInjective(dir: string, n1: string, n2: string)
    requires EntryPath(dir, n1) == EntryPath(dir, n2)
    ensures n1 == n2
  {
    assert n1 == EntryPath(dir, n1)[|dir| + 1..];
  }

  // ----- cleanOldLogFiles -----

  /** Files modified strictly before this instant are old. */
  function Cutoff(now: int, retentionDays: int): int {
    now - retentionDays * SecondsPerDay
  }

  /** A matched regular file older than the cutoff. */
  predicate Expired(e: DirEntry, cutoff: int) {
    MatchesLogGlob(e.name) && e.isFile && e.mtime < cutoff
  }

  /** The paths `cleanOldLogFiles` tries to unlink, in `glob` order. */
  function Candidates(dir: string, entries: seq<DirEntry>, cutoff: int): seq<string>
    decreases |entries|
  {
    if entries == [] then []
    else
      var e := entries[|entries| - 1];
      Candidates(dir, entries[..|entries| - 1], cutoff)
        + (if Expired(e, cutoff) then [EntryPath(dir, e.name)] else [])
  }

  /** The paths whose unlink succeeded. */
  function Succeeded(paths: seq<string>, unlinkOk: string -> bool): seq<string>
    decreases |paths|
  {
    if paths == [] then []
    else
      Succeeded(paths[..|paths| - 1], unlinkOk)
        + (if unlinkOk(paths[|paths| - 1]) then [paths[|paths| - 1]] else [])
  }

  /**
   `cleanOldLogFiles(dir, retentionDays)` at clock reading `now`: the unlinks it attempts,
   the ones that succeed, and the count it returns.
   */
  method CleanOldLogFiles(dir: string, d: Directory, retentionDays: int, now: int, unlinkOk: string -> bool)
    returns (attempted: seq<string>, removed: seq<string>, count: int)
    ensures d.Missing? ==> attempted == [] && removed == [] && count == 0
    ensures d.Present? ==> attempted == Candidates(dir, d.entries, Cutoff(now, retentionDays))
    ensures removed == Succeeded(attempted, unlinkOk)
    ensures count == |removed|
  {
    attempted, removed, count := [], [], 0;
    if d.Missing? {
      return;
    }
    var cutoff := now - retentionDays * 24 * 60 * 60;
    assert cutoff == Cutoff(now, retentionDays);
    var files := d.entries;
    var k := 0;
    while k < |files|
      invariant 0 <= k <= |files|
      invariant attempted == Candidates(dir, files[..k], cutoff)
      invariant removed == Succeeded(attempted, unlinkOk)
      invariant count == |removed|
    {
      var e := files[k];
      var seen := files[..k + 1];
      assert seen[..|seen| - 1] == files[..k] && seen[|seen| - 1] == e;
      if MatchesLogGlob(e.name) && e.isFile && e.mtime < cutoff {
        var path := EntryPath(dir, e.name);
        var next := attempted + [path];
        assert next[..|next| - 1] == attempted && next[|next| - 1] == path;
        assert Succeeded(next, unlinkOk) == removed + (if unlinkOk(path) then [path] else []);
        attempted := next;
        if unlinkOk(path) {
          removed := removed + [path];
          count := count + 1;
        }
      }
      k := k + 1;
    }
    assert files[..k] == files;
  }

  /** A path is a candidate exactly when it is the path of an expired entry. */
  lemma {:induction false} CandidatesMembership(dir: string, entries: seq<DirEntry>, cutoff: int, p: string)
    ensures p in Candidates(dir, entries, cutoff)
        <==> exists k :: 0 <= k < |entries| && Expired(entries[k], cutoff) && p == EntryPath(dir, entries[k].name)
    decreases |entries|
  {
    if entries != [] {
      var init := entries[..|entries| - 1];
      CandidatesMembership(dir, init, cutoff, p);
      if exists k :: 0 <= k < |init| && Expired(init[k], cutoff) && p == EntryPath(dir, init[k].name) {
        var k :| 0 <= k < |init| && Expired(init[k], cutoff) && p == EntryPath(dir, init[k].name);
        assert entries[k] == init[k];
      }
      if exists k :: 0 <= k < |entries| && Expired(entries[k], cutoff) && p == EntryPath(dir, entries[k].name) {
        var k :| 0 <= k < |entries| && Expired(entries[k], cutoff) && p == EntryPath(dir, entries[k].name);
        if k < |init| {
          assert init[k] == entries[k];
        }
      }
    }
  }

  /** A path was removed exactly when it was attempted and its unlink succeeded. */
  lemma {:induction false} SucceededMembership(paths: seq<string>, unlinkOk: string -> bool, p: string)
    ensures p in Succeeded(paths, unlinkOk) <==> p in paths && unlinkOk(p)
    decreases |paths|
  {
    if paths != [] {
      var init := paths[..|paths| - 1];
      SucceededMembership(init, unlinkOk, p);
      assert paths == init + [paths[|paths| - 1]];
    }
  }

  /** A file exactly at the cutoff, or newer, survives (entries of a directory have distinct names). */
  lemma NotOlderThanCutoffSurvives(dir: string, entries: seq<DirEntry>, cutoff: int, k: int)
    requires 0 <= k < |entries|
    requires DistinctNames(entries)
    requires entries[k].mtime >= cutoff
    ensures EntryPath(dir, entries[k].name) !in Candidates(dir, entries, cutoff)
  {
    var p := EntryPath(dir, entries[k].name);
    CandidatesMembership(dir, entries, cutoff, p);
    if p in Candidates(dir, entries, cutoff) {
      var i :| 0 <= i < |entries| && Expired(entries[i], cutoff) && p == EntryPath(dir, entries[i].name);
      EntryPathInjective(dir, entries[i].name, entries[k].name);
    }
  }

  /** Keeping logs longer never deletes more: every candidate under a longer retention is one under a shorter. */
  lemma LongerRetentionDeletesLess(dir: string, entries: seq<DirEntry>, now: int, shorter: int, longer: int, p: string)
    requires shorter <= longer
    requires p in Candidates(dir, entries, Cutoff(now, longer))
    ensures p in Candidates(dir, entries, Cutoff(now, shorter))
  {
    CandidatesMembership(dir, entries, Cutoff(now, longer), p);
    CandidatesMembership(dir, entries, Cutoff(now, shorter), p);
  }

  // ----- getLogFilesInfo -----

  /** One entry of the `getLogFilesInfo` result; the human-readable size is reduced to its unit. */
  datatype LogFileInfo = LogFileInfo(
    name: string, path: string, size: int, sizeUnit: string, created: int, modified: int, ageDays: int)

  /** The description of one file; `age_days` is the floor of the age in days. */
  function Describe(dir: string, e: DirEntry, now: int): (info: LogFileInfo)
    ensures info.ageDays * SecondsPerDay <= now - e.mtime < (info.ageDays + 1) * SecondsPerDay
    ensures info.sizeUnit in ByteUnits.Units
    ensures exists i: nat :: ByteUnits.SelectsUnit(e.size, i) && info.sizeUnit == ByteUnits.Units[i]
  {
    LogFileInfo(e.name, EntryPath(dir, e.name), e.size, ByteUnits.UnitLabel(e.size), e.ctime, e.mtime,
                (now - e.mtime) / SecondsPerDay)
  }

  /** A regular file the pattern matches. */
  predicate Listable(e: DirEntry) {
    MatchesLogGlob(e.name) && e.isFile
  }

  /** The descriptions of the listable entries, in `glob` order (before sorting). */
  function Listed(dir: string, entries: seq<DirEntry>, now: int): seq<LogFileInfo>
    decreases |entries|
  {
    if entries == [] then []
    else
      var e := entries[|entries| - 1];
      Listed(dir, entries[..|entries| - 1], now) + (if Listable(e) then [Describe(dir, e, now)] else [])
  }

  /** Ordered by modification time, newest first. */
  predicate NewestFirst(s: seq<LogFileInfo>) {
    forall i, j :: 0 <= i < j < |s| ==> s[i].modified >= s[j].modified
  }

  /** The entries modified at instant `t`, in their order. */
  function WithModified(s: seq<LogFileInfo>, t: int): seq<LogFileInfo>
    decreases |s|
  {
    if s == [] then [] else (if s[0].modified == t then [s[0]] else []) + WithModified(s[1..], t)
  }

  /** Put `x` after every entry at least as new, so that equal times keep their arrival order. */
  function Insert(x: LogFileInfo, s: seq<LogFileInfo>): seq<LogFileInfo>
    decreases |s|
  {
    if s == [] then [x]
    else if s[0].modified < x.modified then [x] + s
    else [s[0]] + Insert(x, s[1..])
  }

  /** Inserting into a newest-first list keeps it newest first and adds exactly that entry. */
  lemma {:induction false} InsertNewestFirst(x: LogFileInfo, s: seq<LogFileInfo>)
    requires NewestFirst(s)
    ensures NewestFirst(Insert(x, s))
    ensures multiset(Insert(x, s)) == multiset(s) + multiset{x}
    ensures |Insert(x, s)| == |s| + 1
    decreases |s|
  {
    if s == [] {
    } else if s[0].modified < x.modified {
      assert forall j :: 0 <= j < |s| ==> s[j].modified <= s[0].modified;
    } else {
      TailNewestFirst(s);
      InsertNewestFirst(x, s[1..]);
      var rest := Insert(x, s[1..]);
      assert s == [s[0]] + s[1..];
      HeadBoundsRest(x, s, rest);
      assert Insert(x, s) == [s[0]] + rest;
    }
  }

  /** After inserting an entry no newer than the head into the tail, the head is still the newest. */
  lemma HeadBoundsRest(x: LogFileInfo, s: seq<LogFileInfo>, rest: seq<LogFileInfo>)
    requires NewestFirst(s) && s != []
    requires x.modified <= s[0].modified
    requires multiset(rest) == multiset(s[1..]) + multiset{x}
    ensures forall j :: 0 <= j < |rest| ==> rest[j].modified <= s[0].modified
  {
    forall j | 0 <= j < |rest|
      ensures rest[j].modified <= s[0].modified
    {
      assert rest[j] in multiset(rest);
      if rest[j] != x {
        assert rest[j] in multiset(s[1..]);
        var i :| 0 <= i < |s[1..]| && s[1..][i] == rest[j];
        assert s[i + 1] == rest[j];
      }
    }
  }

  /** `usort` with the newest-first comparator; PHP's sort is stable since version 8.0. */
  function SortNewestFirst(s: seq<LogFileInfo>): (r: seq<LogFileInfo>)
    ensures NewestFirst(r)
    ensures multiset(r) == multiset(s)
    decreases |s|
  {
    if s == [] then []
    else
      var sortedInit := SortNewestFirst(s[..|s| - 1]);
      InsertNewestFirst(s[|s| - 1], sortedInit);
      SplitLast(s);
      Insert(s[|s| - 1], sortedInit)
  }

  lemma SplitLast<T>(s: seq<T>)
    requires s != []
    ensures s == s[..|s| - 1] + [s[|s| - 1]]
  {
  }

  lemma {:induction false} WithModifiedAppend(a: seq<LogFileInfo>, b: seq<LogFileInfo>, t: int)
    ensures WithModified(a + b, t) == WithModified(a, t) + WithModified(b, t)
    decreases |a|
  {
    if a != [] {
      var head := if a[0].modified == t then [a[0]] else [];
      assert (a + b)[0] == a[0];
      assert (a + b)[1..] == a[1..] + b;
      assert WithModified(a + b, t) == head + WithModified(a[1..] + b, t);
      WithModifiedAppend(a[1..], b, t);
      assert WithModified(a, t) == head + WithModified(a[1..], t);
    } else {
      assert a + b == b;
    }
  }

  lemma {:induction false} WithModifiedNone(s: seq<LogFileInfo>, t: int)
    requires forall i :: 0 <= i < |s| ==> s[i].modified < t
    ensures WithModified(s, t) == []
    decreases |s|
  {
    if s != [] {
      WithModifiedNone(s[1..], t);
    }
  }

  /** An entry newer than the head goes in front; the equal-time entries are unaffected by the rest. */
  lemma InsertInFront(x: LogFileInfo, s: seq<LogFileInfo>, t: int)
    requires NewestFirst(s) && s != [] && s[0].modified < x.modified
    ensures WithModified(Insert(x, s), t)
         == WithModified(s, t) + (if x.modified == t then [x] else [])
  {
    var r := [x] + s;
    assert r[0] == x && r[1..] == s;
    if x.modified == t {
      WithModifiedNone(s, t);
    }
  }

  /** An entry no newer than the head goes after it, so the head keeps its place among equal times. */
  lemma InsertBehindHead(x: LogFileInfo, s: seq<LogFileInfo>, t: int)
    requires NewestFirst(s) && s != [] && x.modified <= s[0].modified
    requires NewestFirst(s[1..])
    requires WithModified(Insert(x, s[1..]), t)
          == WithModified(s[1..], t) + (if x.modified == t then [x] else [])
    ensures WithModified(Insert(x, s), t)
         == WithModified(s, t) + (if x.modified == t then [x] else [])
  {
    var head := if s[0].modified == t then [s[0]] else [];
    var tail := if x.modified == t then [x] else [];
    var rest := Insert(x, s[1..]);
    var r := [s[0]] + rest;
    assert Insert(x, s) == r;
    assert r[0] == s[0] && r[1..] == rest;
    assert WithModified(r, t) == head + WithModified(rest, t);
    assert WithModified(s, t) == head + WithModified(s[1..], t);
    assert head + (WithModified(s[1..], t) + tail) == (head + WithModified(s[1..], t)) + tail;
  }

  lemma TailNewestFirst(s: seq<LogFileInfo>)
    requires NewestFirst(s) && s != []
    ensures NewestFirst(s[1..])
  {
    forall i, j | 0 <= i < j < |s[1..]|
      ensures s[1..][i].modified >= s[1..][j].modified
    {
      assert s[1..][i] == s[i + 1] && s[1..][j] == s[j + 1];
    }
  }

  lemma {:induction false} InsertKeepsArrivalOrder(x: LogFileInfo, s: seq<LogFileInfo>, t: int)
    requires NewestFirst(s)
    ensures WithModified(Insert(x, s), t)
         == WithModified(s, t) + (if x.modified == t then [x] else [])
    decreases |s|
  {
    if s == [] {
    } else if s[0].modified < x.modified {
      InsertInFront(x, s, t);
    } else {
      TailNewestFirst(s);
      InsertKeepsArrivalOrder(x, s[1..], t);
      InsertBehindHead(x, s, t);
    }
  }

  /** Stability: entries with equal modification times keep their `glob` order. */
  lemma {:induction false} SortKeepsArrivalOrder(s: seq<LogFileInfo>, t: int)
    ensures WithModified(SortNewestFirst(s), t) == WithModified(s, t)
    decreases |s|
  {
    if s != [] {
      var init, last := s[..|s| - 1], s[|s| - 1];
      SplitLast(s);
      var sortedInit := SortNewestFirst(init);
      SortKeepsArrivalOrder(init, t);
      InsertKeepsArrivalOrder(last, sortedInit, t);
      WithModifiedAppend(init, [last], t);
      assert [last][1..] == [];
      calc {
        WithModified(SortNewestFirst(s), t);
        WithModified(Insert(last, sortedInit), t);
        WithModified(sortedInit, t) + (if last.modified == t then [last] else []);
        WithModified(init, t) + WithModified([last], t);
        WithModified(init + [last], t);
      }
    }
  }

  /**
   `getLogFilesInfo(dir)`: nothing for a missing directory; otherwise one description per
   regular matching file, newest first, equal times in `glob` order.
   */
  method GetLogFilesInfo(dir: string, d: Directory, now: int) returns (info: seq<LogFileInfo>)
    ensures d.Missing? ==> info == []
    ensures d.Present? ==> multiset(info) == multiset(Listed(dir, d.entries, now))
    ensures NewestFirst(info)
    ensures d.Present? ==> forall t :: WithModified(info, t) == WithModified(Listed(dir, d.entries, now), t)
  {
    if d.Missing? {
      return [];
    }
    var files := d.entries;
    var collected: seq<LogFileInfo> := [];
    var k := 0;
    while k < |files|
      invariant 0 <= k <= |files|
      invariant collected == Listed(dir, files[..k], now)
    {
      assert files[..k + 1][..k] == files[..k];
      if files[k].isFile && MatchesLogGlob(files[k].name) {
        collected := collected + [Describe(dir, files[k], now)];
      }
      k := k + 1;
    }
    assert files[..k] == files;
    info := SortNewestFirst(collected);
    forall t
      ensures WithModified(info, t) == WithModified(collected, t)
    {
      SortKeepsArrivalOrder(collected, t);
    }
  }

  /**
   Every regular matching file is described, and the listing is never longer than the
   directory. The converse is `ListedComesFromListable`.
   */
  lemma {:induction false} ListedMembership(dir: string, entries: seq<DirEntry>, now: int, k: int)
    requires 0 <= k < |entries|
    ensures Listable(entries[k]) ==> Describe(dir, entries[k], now) in Listed(dir, entries, now)
    ensures |Listed(dir, entries, now)| <= |entries|
    decreases |entries|
  {
    var init := entries[..|entries| - 1];
    if k < |entries| - 1 {
      assert init[k] == entries[k];
      ListedMembership(dir, init, now, k);
    } else if |init| > 0 {
      ListedMembership(dir, init, now, 0);
    }
  }

  /** Every described entry comes from a regular matching file of the directory. */
  lemma {:induction false} ListedComesFromListable(dir: string, entries: seq<DirEntry>, now: int, info: LogFileInfo)
    requires info in Listed(dir, entries, now)
    ensures exists k :: 0 <= k < |entries| && Listable(entries[k]) && info == Describe(dir, entries[k], now)
    decreases |entries|
  {
    var init := entries[..|entries| - 1];
    if info in Listed(dir, init, now) {
      ListedComesFromListable(dir, init, now, info);
      var k :| 0 <= k < |init| && Listable(init[k]) && info == Describe(dir, init[k], now);
      assert entries[k] == init[k];
    }
  }

  /** `glob` reports each name once. */
  predicate DistinctNames(entries: seq<DirEntry>) {
    forall i, j :: 0 <= i < j < |entries| ==> entries[i].name != entries[j].name
  }

  /** One description per directory entry: distinct files give distinct descriptions. */
  lemma {:induction false} ListedDistinct(dir: string, entries: seq<DirEntry>, now: int)
    requires DistinctNames(entries)
    ensures NoDuplicates(Listed(dir, entries, now))
    decreases |entries|
  {
    if entries != [] {
      var init := entries[..|entries| - 1];
      var last := entries[|entries| - 1];
      assert DistinctNames(init) by {
        forall i, j | 0 <= i < j < |init|
          ensures init[i].name != init[j].name
        {
          assert init[i] == entries[i] && init[j] == entries[j];
        }
      }
      ListedDistinct(dir, init, now);
      if Listable(last) {
        var info := Describe(dir, last, now);
        if info in Listed(dir, init, now) {
          ListedComesFromListable(dir, init, now, info);
          assert false;
        }
      }
    }
  }
}

=== FILE: logger_cache.dfy ===
/**
 The memoising logger factory: `create` looks a logger up by a key built from its
 parameters, and otherwise constructs one with a general sink and an error sink and
 stores it; `clearCache` forgets every stored logger; the preset constructors bind
 fixed parameter tuples.

 The process-wide static map is threaded through explicitly as a `Cache` value.
 Object identity of a constructed logger is modelled by a construction serial number,
 so "returns the cached instance" and "constructs a fresh one" are observable.
 */
module LoggerCache {
  import opened Php

  /** `Monolog\Level`. */
  datatype Level = Debug | Info | Notice | Warning | Error | Critical | Alert | Emergency

  /** The backing value of each `Monolog\Level` case, as concatenated into the cache key. */
  function LevelValue(l: Level): int {
    match l
    case Debug => 100
    case Info => 200
    case Notice => 250
    case Warning => 300
    case Error => 400
    case Critical => 500
    case Alert => 550
    case Emergency => 600
  }

  const DefaultRetentionDays: int := 10
  const DefaultMaxFiles: int := 10
  const DefaultLevel: Level := Info

  /** The parameters of one `create` call; `logDir` is `None` when the caller passes null. */
  datatype CreateArgs = CreateArgs(name: string, logDir: Option<string>, retentionDays: int, maxFiles: int, level: Level)

  /** `create(name)`: every other parameter at its default. */
  function DefaultArgs(name: string): CreateArgs {
    CreateArgs(name, None, DefaultRetentionDays, DefaultMaxFiles, DefaultLevel)
  }

  /**
   The cache key: the parameters rendered as text and concatenated with no separator.
   A null directory contributes nothing. (The source hashes this string; the hash is
   left out and the string itself is the key.)
   */
  function CacheKey(a: CreateArgs): (k: string)
    ensures StartsWith(k, a.name)
    ensures a.logDir.Some? ==> StartsWith(k[|a.name|..], a.logDir.value)
    ensures a.logDir.None? ==> StartsWith(k[|a.name|..], IntToString(a.retentionDays))
  {
    var tail := IntToString(a.retentionDays) + IntToString(a.maxFiles) + IntToString(LevelValue(a.level));
    var k := a.name + (a.logDir.GetOr("") + tail);
    assert k[..|a.name|] == a.name && k[|a.name|..] == a.logDir.GetOr("") + tail;
    assert (a.logDir.GetOr("") + tail)[..|a.logDir.GetOr("")|] == a.logDir.GetOr("");
    k
  }

  /** The directory used when none is given: the name with every '-' turned into '_'. */
  function DefaultLogDir(documentRoot: string, name: string): string {
    documentRoot + "/local/logs/" + ReplaceChar(name, '-', '_')
  }

  /** The directory the logger writes to, resolved after the key has been computed. */
  function LogDirOf(documentRoot: string, a: CreateArgs): string {
    a.logDir.GetOr(DefaultLogDir(documentRoot, a.name))
  }

  /** A rotating file sink: where it writes, how many files it keeps, and its minimum level. */
  datatype Sink = Sink(path: string, maxFiles: int, minLevel: Level)

  /** A constructed logger; `serial` tells two constructions apart. */
  datatype LoggerHandle = LoggerHandle(serial: nat, channel: string, main: Sink, errors: Sink)

  /** `h` is the logger `create` would construct for `a`: its channel, its two files and their settings. */
  predicate ConfiguredFor(h: LoggerHandle, documentRoot: string, a: CreateArgs) {
    var dir := LogDirOf(documentRoot, a);
    && h.channel == a.name
    && h.main == Sink(dir + "/" + a.name + ".log", a.maxFiles, a.level)
    && h.errors == Sink(dir + "/" + a.name + "-errors.log", a.maxFiles, Error)
  }

  /** The static logger map, plus the number of loggers constructed so far. */
  datatype Cache = Cache(loggers: map<string, LoggerHandle>, constructed: nat)

  const EmptyCache: Cache := Cache(map[], 0)

  /** Every stored logger was constructed before now. */
  predicate Valid(c: Cache) {
    forall k :: k in c.loggers ==> c.loggers[k].serial < c.constructed
  }

  /** The result of `create`: the new cache, the logger handed back, and the directory it had to make. */
  datatype Created = Created(cache: Cache, logger: LoggerHandle, madeDir: Option<string>)

  function Construct(serial: nat, documentRoot: string, a: CreateArgs): LoggerHandle {
    var dir := LogDirOf(documentRoot, a);
    LoggerHandle(
      serial,
      a.name,
      Sink(dir + "/" + a.name + ".log", a.maxFiles, a.level),
      Sink(dir + "/" + a.name + "-errors.log", a.maxFiles, Error))
  }

  /**
   `create`: a key hit hands back the stored logger untouched; a miss constructs a new
   logger, creates its directory when `isDir` says it is missing, and stores the logger
   under its key. The cache only grows, and nothing already stored is replaced.
   */
  function Create(c: Cache, a: CreateArgs, documentRoot: string, isDir: string -> bool): (r: Created)
    ensures CacheKey(a) in r.cache.loggers && r.cache.loggers[CacheKey(a)] == r.logger
    ensures r.cache.loggers.Keys == c.loggers.Keys + {CacheKey(a)}
    ensures forall k :: k in c.loggers ==> r.cache.loggers[k] == c.loggers[k]
    ensures Valid(c) ==> Valid(r.cache)
    ensures CacheKey(a) !in c.loggers ==> ConfiguredFor(r.logger, documentRoot, a) && r.logger.serial == c.constructed
    ensures CacheKey(a) in c.loggers ==> r.madeDir == None
    ensures CacheKey(a) !in c.loggers ==>
      r.madeDir == (if isDir(LogDirOf(documentRoot, a)) then None else Some(LogDirOf(documentRoot, a)))
  {
    var key := CacheKey(a);
    if key in c.loggers then
      Created(c, c.loggers[key], None)
    else
      var logger := Construct(c.constructed, documentRoot, a);
      var dir := LogDirOf(documentRoot, a);
      Created(
        Cache(c.loggers[key := logger], c.constructed + 1),
        logger,
        if isDir(dir) then None else Some(dir))
  }

  /** `clearCache`: forget every stored logger. */
  function ClearCache(c: Cache): (r: Cache)
    ensures r.loggers == map[]
    ensures Valid(r)
    ensures r.constructed == c.constructed
  {
    Cache(map[], c.constructed)
  }

  /** A second `create` with a key already stored returns that very logger and changes nothing. */
  lemma CreateHitReturnsCached(c: Cache, a: CreateArgs, documentRoot: string, isDir: string -> bool)
    requires CacheKey(a) in c.loggers
    ensures Create(c, a, documentRoot, isDir).logger == c.loggers[CacheKey(a)]
    ensures Create(c, a, documentRoot, isDir).cache == c
    ensures Create(c, a, documentRoot, isDir).madeDir == None
  {
  }

  /** A miss constructs a logger distinct from every one already stored. */
  lemma CreateMissIsFresh(c: Cache, a: CreateArgs, documentRoot: string, isDir: string -> bool)
    requires Valid(c)
    requires CacheKey(a) !in c.loggers
    ensures var r := Create(c, a, documentRoot, isDir);
      && r.cache.constructed == c.constructed + 1
      && forall k :: k in c.loggers ==> c.loggers[k].serial != r.logger.serial
  {
  }

  /** Creating twice with the same parameters yields the same logger, and the second call is a no-op. */
  lemma CreateIsIdempotent(c: Cache, a: CreateArgs, documentRoot: string, isDir: string -> bool)
    ensures var r1 := Create(c, a, documentRoot, isDir);
      var r2 := Create(r1.cache, a, documentRoot, isDir);
      r2.logger == r1.logger && r2.cache == r1.cache && r2.madeDir == None
  {
  }

  /** After `clearCache` the next `create` for any key constructs a logger never handed out before. */
  lemma ClearThenCreateIsFresh(c: Cache, a: CreateArgs, documentRoot: string, isDir: string -> bool)
    requires Valid(c)
    ensures var r := Create(ClearCache(c), a, documentRoot, isDir);
      && r.logger.serial == c.constructed
      && forall k :: k in c.loggers ==> c.loggers[k].serial != r.logger.serial
  {
  }

  /**
   With no directory given, the logger writes `<root>/local/logs/<name with '_'>/<name>.log`
   at the requested level and `...-errors.log` at `Error`, each keeping `maxFiles` files.
   */
  lemma DefaultDirectorySinks(c: Cache, a: CreateArgs, documentRoot: string, isDir: string -> bool)
    requires a.logDir == None
    requires CacheKey(a) !in c.loggers
    ensures var r := Create(c, a, documentRoot, isDir);
      var dir := documentRoot + "/local/logs/" + ReplaceChar(a.name, '-', '_');
      && r.logger.main == Sink(dir + "/" + a.name + ".log", a.maxFiles, a.level)
      && r.logger.errors == Sink(dir + "/" + a.name + "-errors.log", a.maxFiles, Error)
      && r.madeDir == (if isDir(dir) then None else Some(dir))
  {
  }

  /** The key has no separators, so different parameter tuples can share one cache entry. */
  lemma KeyCollision()
    ensures CreateArgs("app", None, 1, 10, Info) != CreateArgs("app", None, 11, 0, Info)
    ensures CacheKey(CreateArgs("app", None, 1, 10, Info)) == CacheKey(CreateArgs("app", None, 11, 0, Info))
  {
    assert IntToString(1) + IntToString(10) == "110";
    assert IntToString(11) + IntToString(0) == "110";
  }

  /**
   The key is taken before the directory is defaulted, so `create(n)` and `create(n, <its
   default directory>)` land in two cache entries even though they write the same files.
   */
  lemma DefaultDirIsSeparateEntry(name: string, documentRoot: string)
    ensures var explicit := CreateArgs(name, Some(DefaultLogDir(documentRoot, name)),
                                       DefaultRetentionDays, DefaultMaxFiles, DefaultLevel);
      && CacheKey(DefaultArgs(name)) != CacheKey(explicit)
      && LogDirOf(documentRoot, DefaultArgs(name)) == LogDirOf(documentRoot, explicit)
  {
    var explicit := CreateArgs(name, Some(DefaultLogDir(documentRoot, name)),
                               DefaultRetentionDays, DefaultMaxFiles, DefaultLevel);
    assert |CacheKey(explicit)| == |CacheKey(DefaultArgs(name))| + |DefaultLogDir(documentRoot, name)|;
  }

  // The preset constructors.

  function SchedulerArgs(documentRoot: string): CreateArgs {
    CreateArgs("scheduler", Some(documentRoot + "/local/logs/cron"), 10, 10, Info)
  }

  function TaskArgs(documentRoot: string, taskName: string): CreateArgs {
    CreateArgs("task-" + taskName, Some(documentRoot + "/local/logs/tasks"), 10, 10, Info)
  }

  function ApiArgs(documentRoot: string): CreateArgs {
    CreateArgs("api-requests", Some(documentRoot + "/local/logs/api"), 30, 15, Debug)
  }

  function IntegrationArgs(documentRoot: string, integration: string): CreateArgs {
    CreateArgs("integration-" + integration, Some(documentRoot + "/local/logs/integrations"), 15, 10, Info)
  }

  function ErrorArgs(documentRoot: string): CreateArgs {
    CreateArgs("errors", Some(documentRoot + "/local/logs/errors"), 30, 20, Warning)
  }

  /** Regrouping the five parts of a key. */
  lemma Regroup<T>(n: seq<T>, d: seq<T>, r: seq<T>, m: seq<T>, l: seq<T>)
    ensures n + (d + (r + m + l)) == n + d + r + m + l
  {
  }

  /** The key as its five rendered parts, grouped from the left. */
  lemma KeyParts(a: CreateArgs)
    ensures CacheKey(a) == a.name + a.logDir.GetOr("") + IntToString(a.retentionDays)
                         + IntToString(a.maxFiles) + IntToString(LevelValue(a.level))
  {
    Regroup(a.name, a.logDir.GetOr(""), IntToString(a.retentionDays), IntToString(a.maxFiles), IntToString(LevelValue(a.level)));
  }

  /** Two calls that differ only in the level never share a logger. */
  lemma LevelSeparatesEntries(a: CreateArgs, l: Level)
    requires l != a.level
    ensures CacheKey(a) != CacheKey(a.(level := l))
  {
    var b := a.(level := l);
    var p := a.name + a.logDir.GetOr("") + IntToString(a.retentionDays) + IntToString(a.maxFiles);
    KeyParts(a);
    KeyParts(b);
    assert ParseInt(IntToString(LevelValue(a.level))) != ParseInt(IntToString(LevelValue(l)));
    assert CacheKey(a)[|p|..] == IntToString(LevelValue(a.level));
    assert CacheKey(b)[|p|..] == IntToString(LevelValue(l));
  }

  /** Different middles give different sequences around a common prefix and suffix. */
  lemma {:induction false} DistinctBetween<T>(p: seq<T>, x: seq<T>, y: seq<T>, t: seq<T>)
    requires x != y
    ensures p + x + t != p + y + t
  {
    if |x| == |y| {
      assert (p + x + t)[|p|..|p| + |x|] == x;
      assert (p + y + t)[|p|..|p| + |y|] == y;
    } else {
      assert |p + x + t| != |p + y + t|;
    }
  }

  /** Two calls that differ only in the number of files kept never share a logger. */
  lemma MaxFilesSeparatesEntries(a: CreateArgs, m: int)
    requires m != a.maxFiles
    ensures CacheKey(a) != CacheKey(a.(maxFiles := m))
  {
    var p := a.name + a.logDir.GetOr("") + IntToString(a.retentionDays);
    var t := IntToString(LevelValue(a.level));
    assert ParseInt(IntToString(a.maxFiles)) != ParseInt(IntToString(m));
    DistinctBetween(p, IntToString(a.maxFiles), IntToString(m), t);
    KeyParts(a);
    KeyParts(a.(maxFiles := m));
  }

  /** The key's first character is the name's. */
  lemma KeyStartsLikeName(a: CreateArgs)
    requires |a.name| > 0
    ensures |CacheKey(a)| > 0 && CacheKey(a)[0] == a.name[0]
  {
    assert CacheKey(a)[..|a.name|][0] == CacheKey(a)[0];
  }

  /**
   The five presets never share a logger: their names begin with five different letters,
   and the key begins with the name.
   */
  lemma PresetKeysDistinct(documentRoot: string, task: string, integration: string)
    ensures var keys := [CacheKey(SchedulerArgs(documentRoot)), CacheKey(TaskArgs(documentRoot, task)),
                         CacheKey(ApiArgs(documentRoot)), CacheKey(IntegrationArgs(documentRoot, integration)),
                         CacheKey(ErrorArgs(documentRoot))];
      NoDuplicates(keys)
  {
    KeyStartsLikeName(SchedulerArgs(documentRoot));
    KeyStartsLikeName(TaskArgs(documentRoot, task));
    KeyStartsLikeName(ApiArgs(documentRoot));
    KeyStartsLikeName(IntegrationArgs(documentRoot, integration));
    KeyStartsLikeName(ErrorArgs(documentRoot));
  }

  /** If `p + x + s == p + y + s` then `x == y`. */
  lemma CancelAround(p: string, x: string, y: string, s: string)
    requires p + x + s == p + y + s
    ensures x == y
  {
    assert |x| == |y|;
    assert forall i :: 0 <= i < |x| ==> x[i] == (p + x + s)[|p| + i];
    assert forall i :: 0 <= i < |y| ==> y[i] == (p + y + s)[|p| + i];
  }

  /** Two different task names never share a logger. */
  lemma TaskLoggersDistinct(documentRoot: string, t1: string, t2: string)
    requires t1 != t2
    ensures CacheKey(TaskArgs(documentRoot, t1)) != CacheKey(TaskArgs(documentRoot, t2))
  {
    var suffix := documentRoot + "/local/logs/tasks" + IntToString(10) + IntToString(10) + IntToString(200);
    assert CacheKey(TaskArgs(documentRoot, t1)) == "task-" + t1 + suffix;
    assert CacheKey(TaskArgs(documentRoot, t2)) == "task-" + t2 + suffix;
    if "task-" + t1 + suffix == "task-" + t2 + suffix {
      CancelAround("task-", t1, t2, suffix);
    }
  }

  /** Two different integrations never share a logger. */
  lemma IntegrationLoggersDistinct(documentRoot: string, i1: string, i2: string)
    requires i1 != i2
    ensures CacheKey(IntegrationArgs(documentRoot, i1)) != CacheKey(IntegrationArgs(documentRoot, i2))
  {
    var suffix := documentRoot + "/local/logs/integrations" + IntToString(15) + IntToString(10) + IntToString(200);
    assert CacheKey(IntegrationArgs(documentRoot, i1)) == "integration-" + i1 + suffix;
    assert CacheKey(IntegrationArgs(documentRoot, i2)) == "integration-" + i2 + suffix;
    if "integration-" + i1 + suffix == "integration-" + i2 + suffix {
      CancelAround("integration-", i1, i2, suffix);
    }
  }

  // ----- the key collision, and a cache keyed by the tuple itself -----

  /**
   Because the key has no separators, `create("ab")` followed by `create("a", "b")` hands
   the second caller the logger of "ab": a different channel writing to a different
   directory than the one asked for.
   */
  lemma CollidingKeyReturnsForeignLogger(documentRoot: string, isDir: string -> bool)
    ensures var first := Create(EmptyCache, DefaultArgs("ab"), documentRoot, isDir);
      var asked := CreateArgs("a", Some("b"), DefaultRetentionDays, DefaultMaxFiles, DefaultLevel);
      var second := Create(first.cache, asked, documentRoot, isDir);
      && second.logger == first.logger
      && !ConfiguredFor(second.logger, documentRoot, asked)
  {
    var asked := CreateArgs("a", Some("b"), DefaultRetentionDays, DefaultMaxFiles, DefaultLevel);
    assert CacheKey(DefaultArgs("ab")) == CacheKey(asked);
    assert "ab" != "a";
  }

  /** A logger cache keyed by the whole parameter tuple. */
  datatype TupleCache = TupleCache(loggers: map<CreateArgs, LoggerHandle>, constructed: nat)

  /** Every stored logger is the one its parameters describe. */
  predicate Faithful(c: TupleCache, documentRoot: string) {
    forall a :: a in c.loggers ==> ConfiguredFor(c.loggers[a], documentRoot, a)
  }

  datatype TupleCreated = TupleCreated(cache: TupleCache, logger: LoggerHandle, madeDir: Option<string>)

  /**
   `create` with the tuple as key: on a hit or a miss, the logger handed back is always
   the one configured for the arguments, and the cache stays faithful.
   */
  function CreateByTuple(c: TupleCache, a: CreateArgs, documentRoot: string, isDir: string -> bool): (r: TupleCreated)
    requires Faithful(c, documentRoot)
    ensures Faithful(r.cache, documentRoot)
    ensures ConfiguredFor(r.logger, documentRoot, a)
    ensures a in r.cache.loggers && r.cache.loggers[a] == r.logger
    ensures r.cache.loggers.Keys == c.loggers.Keys + {a}
  {
    if a in c.loggers then
      TupleCreated(c, c.loggers[a], None)
    else
      var logger := Construct(c.constructed, documentRoot, a);
      var dir := LogDirOf(documentRoot, a);
      TupleCreated(
        TupleCache(c.loggers[a := logger], c.constructed + 1),
        logger,
        if isDir(dir) then None else Some(dir))
  }
}

=== FILE: php.dfy ===
/**
 The small slice of PHP's runtime semantics that the rest of the model relies on:
 nullable values, thrown values, string truthiness, the decimal rendering an
 `int` gets when it is concatenated with `.`, `str_starts_with` and a
 single-character `str_replace`.
 */
module Php {

  /** A PHP value that may be `null`. */
  datatype Option<+T> = None | Some(value: T) {
    function GetOr(default: T): T {
      match this
      case Some(v) => v
      case None => default
    }
  }

  /** The two families of `\Throwable`: `\Exception` and `\Error` (the latter includes `TypeError`). */
  datatype ThrowableKind = ExceptionKind | ErrorKind

  /** A thrown value, with the fields a handler can read back from it. */
  datatype Throwable = Throwable(kind: ThrowableKind, message: string, code: int, file: string, line: int)

  /** The way a PHP call ends: it returns a value or it throws. */
  datatype Outcome<+T> = Returned(value: T) | Threw(error: Throwable)

  /** PHP's boolean conversion of a string: exactly `""` and `"0"` are false. */
  predicate StringTruthy(s: string) {
    s != "" && s != "0"
  }

  /** No element occurs twice. */
  predicate NoDuplicates<T(==)>(s: seq<T>) {
    forall i, j :: 0 <= i < j < |s| ==> s[i] != s[j]
  }

  /** `str_starts_with(s, prefix)`. */
  predicate StartsWith(s: string, prefix: string) {
    |prefix| <= |s| && s[..|prefix|] == prefix
  }

  function DigitChar(d: nat): char
    requires d < 10
  {
    "0123456789"[d]
  }

  function NatToString(n: nat): string
    decreases n
  {
    if n < 10 then [DigitChar(n)] else NatToString(n / 10) + [DigitChar(n % 10)]
  }

  /** The decimal text PHP produces for an `int` in string context (a leading '-' for negatives). */
  function IntToString(i: int): (s: string)
    ensures ParseInt(s) == i
  {
    if i < 0 then
      NegativeRoundTrip(-i);
      "-" + NatToString(-i)
    else
      UnsignedRoundTrip(i);
      NatToString(i)
  }

  /** `str_replace(from, to, s)` with one-character search and replacement strings. */
  function ReplaceChar(s: string, from: char, to: char): (r: string)
    ensures |r| == |s|
    ensures forall i :: 0 <= i < |s| ==> r[i] == (if s[i] == from then to else s[i])
    ensures from !in r || from == to
  {
    if s == [] then []
    else [if s[0] == from then to else s[0]] + ReplaceChar(s[1..], from, to)
  }

  /** Parsing the decimal text back gives the number: the rendering loses nothing. */
  function ParseNat(s: string): (n: nat)
    decreases |s|
  {
    if s == [] then 0
    else ParseNat(s[..|s| - 1]) * 10 + DigitValue(s[|s| - 1])
  }

  function DigitValue(c: char): nat {
    if '0' <= c <= '9' then (c as int - '0' as int) else 0
  }

  lemma {:induction false} NatToStringRoundTrip(n: nat)
    ensures ParseNat(NatToString(n)) == n
    decreases n
  {
    if n >= 10 {
      var s := NatToString(n / 10) + [DigitChar(n % 10)];
      assert s[..|s| - 1] == NatToString(n / 10);
      NatToStringRoundTrip(n / 10);
    }
  }

  /** The decimal text of a natural starts with a digit, never with '-'. */
  lemma {:induction false} NatToStringStartsWithDigit(n: nat)
    ensures |NatToString(n)| > 0 && '0' <= NatToString(n)[0] <= '9'
    decreases n
  {
    if n >= 10 {
      NatToStringStartsWithDigit(n / 10);
    }
  }

  /** Reads back the text `IntToString` produces: an optional '-' and the digits. */
  function ParseInt(s: string): int {
    if |s| > 0 && s[0] == '-' then -(ParseNat(s[1..]) as int) else ParseNat(s)
  }

  lemma ParseNegated(t: string)
    ensures ParseInt("-" + t) == -(ParseNat(t) as int)
  {
    assert ("-" + t)[1..] == t;
  }

  lemma ParseUnsigned(t: string)
    requires |t| > 0 && '0' <= t[0] <= '9'
    ensures ParseInt(t) == ParseNat(t)
  {
  }

  lemma UnsignedRoundTrip(n: nat)
    ensures ParseInt(NatToString(n)) == n
  {
    NatToStringStartsWithDigit(n);
    ParseUnsigned(NatToString(n));
    NatToStringRoundTrip(n);
  }

  lemma NegativeRoundTrip(n: nat)
    ensures ParseInt("-" + NatToString(n)) == -(n as int)
  {
    ParseNegated(NatToString(n));
    NatToStringRoundTrip(n);
  }

  /** Distinct integers render as distinct strings. */
  lemma IntToStringInjective(a: int, b: int)
    requires IntToString(a) == IntToString(b)
    ensures a == b
  {
  }
}

=== FILE: route_discovery.dfy ===
/**
 Route-file discovery and registration: every installed module whose ID starts with a
 known prefix followed by a dot, and whose `routes/api.php` exists, contributes that
 file; the configurator includes each file once and calls the value it returns when,
 and only when, that value is a closure.

 The installed-module list, `file_exists` and the value an included file returns are
 inputs; `include_once` is modelled by the set of files already included.
 */
module RouteDiscovery {
  import opened Php

  const ModulePrefixes: seq<string> := ["mymoduleprefix"]

  /** The route file of a module. */
  function RoutePath(documentRoot: string, id: string): string {
    documentRoot + "/local/modules/" + id + "/routes/api.php"
  }

  /** A module contributes its route file when its ID starts with the prefix and a dot, and the file exists. */
  predicate Contributes(documentRoot: string, id: string, fileExists: string -> bool) {
    StartsWith(id, ModulePrefixes[0] + ".") && fileExists(RoutePath(documentRoot, id))
  }

  /** The contributed route files, one per contributing module, in module order. */
  function Contributions(documentRoot: string, modules: seq<string>, fileExists: string -> bool): seq<string>
    decreases |modules|
  {
    if modules == [] then []
    else
      var id := modules[|modules| - 1];
      Contributions(documentRoot, modules[..|modules| - 1], fileExists)
        + (if Contributes(documentRoot, id, fileExists) then [RoutePath(documentRoot, id)] else [])
  }

  /** What the inner loop over `prefixes` adds for module `id`. */
  function PerModule(documentRoot: string, id: string, prefixes: seq<string>, fileExists: string -> bool): seq<string>
    decreases |prefixes|
  {
    if prefixes == [] then []
    else
      var prefix := prefixes[|prefixes| - 1];
      PerModule(documentRoot, id, prefixes[..|prefixes| - 1], fileExists)
        + (if StartsWith(id, prefix + ".") && fileExists(RoutePath(documentRoot, id)) then [RoutePath(documentRoot, id)] else [])
  }

  lemma SinglePrefix(documentRoot: string, id: string, fileExists: string -> bool)
    ensures PerModule(documentRoot, id, ModulePrefixes, fileExists)
         == (if Contributes(documentRoot, id, fileExists) then [RoutePath(documentRoot, id)] else [])
  {
    assert ModulePrefixes[..0] == [];
  }

  /** `$getRoutePaths`: the nested loops over installed modules and prefixes. */
  method GetRoutePaths(documentRoot: string, modules: seq<string>, fileExists: string -> bool) returns (routes: seq<string>)
    ensures routes == Contributions(documentRoot, modules, fileExists)
  {
    routes := [];
    var k := 0;
    while k < |modules|
      invariant 0 <= k <= |modules|
      invariant routes == Contributions(documentRoot, modules[..k], fileExists)
    {
      var id := modules[k];
      var before := routes;
      var j := 0;
      while j < |ModulePrefixes|
        invariant 0 <= j <= |ModulePrefixes|
        invariant routes == before + PerModule(documentRoot, id, ModulePrefixes[..j], fileExists)
      {
        var route := RoutePath(documentRoot, id);
        assert ModulePrefixes[..j + 1][..j] == ModulePrefixes[..j];
        if StartsWith(id, ModulePrefixes[j] + ".") && fileExists(route) {
          routes := routes + [route];
        }
        j := j + 1;
      }
      assert ModulePrefixes[..j] == ModulePrefixes;
      SinglePrefix(documentRoot, id, fileExists);
      assert modules[..k + 1][..k] == modules[..k];
      k := k + 1;
    }
    assert modules[..k] == modules;
  }

  /** A path is returned exactly when it is the route file of a contributing module. */
  lemma {:induction false} ContributionsMembership(documentRoot: string, modules: seq<string>, fileExists: string -> bool, p: string)
    ensures p in Contributions(documentRoot, modules, fileExists)
        <==> exists k :: 0 <= k < |modules| && Contributes(documentRoot, modules[k], fileExists)
                         && p == RoutePath(documentRoot, modules[k])
    decreases |modules|
  {
    if modules != [] {
      var init := modules[..|modules| - 1];
      ContributionsMembership(documentRoot, init, fileExists, p);
      if exists k :: 0 <= k < |init| && Contributes(documentRoot, init[k], fileExists) && p == RoutePath(documentRoot, init[k]) {
        var k :| 0 <= k < |init| && Contributes(documentRoot, init[k], fileExists) && p == RoutePath(documentRoot, init[k]);
        assert modules[k] == init[k];
      }
      if exists k :: 0 <= k < |modules| && Contributes(documentRoot, modules[k], fileExists) && p == RoutePath(documentRoot, modules[k]) {
        var k :| 0 <= k < |modules| && Contributes(documentRoot, modules[k], fileExists) && p == RoutePath(documentRoot, modules[k]);
        if k < |init| {
          assert init[k] == modules[k];
        }
      }
    }
  }

  /** Order follows the module list: the result for a split list is the two results concatenated. */
  lemma {:induction false} ContributionsAppend(documentRoot: string, a: seq<string>, b: seq<string>, fileExists: string -> bool)
    ensures Contributions(documentRoot, a + b, fileExists)
         == Contributions(documentRoot, a, fileExists) + Contributions(documentRoot, b, fileExists)
    decreases |b|
  {
    if b == [] {
      assert a + b == a;
    } else {
      var initB := b[..|b| - 1];
      assert (a + b)[..|a + b| - 1] == a + initB;
      assert (a + b)[|a + b| - 1] == b[|b| - 1];
      ContributionsAppend(documentRoot, a, initB, fileExists);
    }
  }

  /** At most one route per module. */
  lemma {:induction false} AtMostOnePerModule(documentRoot: string, modules: seq<string>, fileExists: string -> bool)
    ensures |Contributions(documentRoot, modules, fileExists)| <= |modules|
    decreases |modules|
  {
    if modules != [] {
      AtMostOnePerModule(documentRoot, modules[..|modules| - 1], fileExists);
    }
  }

  /** The dot is part of the prefix: "mymoduleprefix" and "mymoduleprefixx" contribute nothing. */
  lemma PrefixNeedsDot(documentRoot: string, fileExists: string -> bool)
    ensures !Contributes(documentRoot, "mymoduleprefix", fileExists)
    ensures !Contributes(documentRoot, "mymoduleprefixx", fileExists)
  {
    assert "mymoduleprefixx"[..15][14] != "mymoduleprefix."[14];
  }

  /** A module named with the prefix and a dot contributes exactly when its route file exists. */
  lemma DottedModuleContributes(documentRoot: string, fileExists: string -> bool)
    ensures Contributes(documentRoot, "mymoduleprefix.api", fileExists)
        <==> fileExists(RoutePath(documentRoot, "mymoduleprefix.api"))
  {
    assert "mymoduleprefix.api"[..15] == "mymoduleprefix.";
  }

  /** Different modules have different route files. */
  lemma RoutePathInjective(documentRoot: string, id1: string, id2: string)
    requires RoutePath(documentRoot, id1) == RoutePath(documentRoot, id2)
    ensures id1 == id2
  {
    var pre := documentRoot + "/local/modules/";
    var suf := "/routes/api.php";
    assert |id1| == |id2|;
    assert id1 == RoutePath(documentRoot, id1)[|pre|..|pre| + |id1|];
    assert id2 == RoutePath(documentRoot, id2)[|pre|..|pre| + |id2|];
  }

  // ----- the configurator -----

  /** The value `include_once` yields the first time a route file is included. */
  datatype Included = ClosureValue(closure: nat) | OtherValue

  /** The closures called on the configurator, in order, and the files included afterwards. */
  datatype Configured = Configured(invoked: seq<nat>, included: set<string>)

  /**
   The returned function's loop: include each route file once (a file already included
   yields `true`, not a closure) and call the result only if it is a closure.
   */
  function Configure(routes: seq<string>, included: set<string>, load: string -> Included): (r: Configured)
    ensures r.included == included + set p | p in routes
    ensures |r.invoked| <= |routes|
    decreases |routes|
  {
    if routes == [] then Configured([], included)
    else
      var p := routes[0];
      if p in included then Configure(routes[1..], included, load)
      else
        var rest := Configure(routes[1..], included + {p}, load);
        match load(p)
        case ClosureValue(c) => Configured([c] + rest.invoked, rest.included)
        case OtherValue => rest
  }

  /**
   At most one closure per route file: the calls never outnumber the distinct files
   that were not included before, however often a file is listed.
   */
  lemma {:induction false} OneClosurePerFile(routes: seq<string>, included: set<string>, load: string -> Included)
    ensures |Configure(routes, included, load).invoked| <= |(set p | p in routes) - included|
    decreases |routes|
  {
    if routes != [] {
      var p := routes[0];
      var all := set q | q in routes;
      var later := set q | q in routes[1..];
      assert all == {p} + later;
      if p in included {
        OneClosurePerFile(routes[1..], included, load);
        SubsetCardinality(later - included, all - included);
      } else {
        OneClosurePerFile(routes[1..], included + {p}, load);
        SubsetCardinality(later - (included + {p}), (all - included) - {p});
      }
    }
  }

  lemma {:induction false} SubsetCardinality<T>(a: set<T>, b: set<T>)
    requires a <= b
    ensures |a| <= |b|
    decreases |b|
  {
    if a != {} {
      var x :| x in a;
      SubsetCardinality(a - {x}, b - {x});
    }
  }

  /** The closures of the route files, in order, skipping every file that returns something else. */
  function ClosuresOf(routes: seq<string>, load: string -> Included): seq<nat>
    decreases |routes|
  {
    if routes == [] then []
    else (if load(routes[0]).ClosureValue? then [load(routes[0]).closure] else []) + ClosuresOf(routes[1..], load)
  }

  /** Files not yet included, listed once each, call exactly their closures in order. */
  lemma {:induction false} FreshRoutesInvokeTheirClosures(routes: seq<string>, included: set<string>, load: string -> Included)
    requires NoDuplicates(routes)
    requires forall i :: 0 <= i < |routes| ==> routes[i] !in included
    ensures Configure(routes, included, load).invoked == ClosuresOf(routes, load)
    decreases |routes|
  {
    if routes != [] {
      var p := routes[0];
      forall i | 0 <= i < |routes[1..]|
        ensures routes[1..][i] !in included + {p}
      {
        assert routes[1..][i] == routes[i + 1];
      }
      FreshRoutesInvokeTheirClosures(routes[1..], included + {p}, load);
    }
  }

  /** Files already included call nothing. */
  lemma {:induction false} IncludedRoutesInvokeNothing(routes: seq<string>, included: set<string>, load: string -> Included)
    requires forall i :: 0 <= i < |routes| ==> routes[i] in included
    ensures Configure(routes, included, load).invoked == []
    decreases |routes|
  {
    if routes != [] {
      IncludedRoutesInvokeNothing(routes[1..], included, load);
    }
  }

  /** Running the configurator a second time in the same process registers nothing more. */
  lemma SecondRunInvokesNothing(routes: seq<string>, included: set<string>, load: string -> Included)
    ensures var first := Configure(routes, included, load);
      Configure(routes, first.included, load).invoked == []
  {
    IncludedRoutesInvokeNothing(routes, Configure(routes, included, load).included, load);
  }

  /** The route files of distinct modules are distinct. */
  lemma {:induction false} ContributionsDistinct(documentRoot: string, modules: seq<string>, fileExists: string -> bool)
    requires NoDuplicates(modules)
    ensures NoDuplicates(Contributions(documentRoot, modules, fileExists))
    decreases |modules|
  {
    if modules != [] {
      var init := modules[..|modules| - 1];
      var last := modules[|modules| - 1];
      ContributionsDistinct(documentRoot, init, fileExists);
      var before := Contributions(documentRoot, init, fileExists);
      if Contributes(documentRoot, last, fileExists) {
        var p := RoutePath(documentRoot, last);
        ContributionsMembership(documentRoot, init, fileExists, p);
        if p in before {
          var k :| 0 <= k < |init| && Contributes(documentRoot, init[k], fileExists) && p == RoutePath(documentRoot, init[k]);
          RoutePathInjective(documentRoot, init[k], last);
          assert false;
        }
      }
    }
  }

  /**
   The whole route loader on a fresh process (nothing included yet), for installed modules
   with distinct IDs: the configurator is called with the closure of each contributing
   module's route file, in module order, and with nothing else.
   */
  lemma LoaderInvokesContributedClosures(documentRoot: string, modules: seq<string>, fileExists: string -> bool,
                                         load: string -> Included)
    requires NoDuplicates(modules)
    ensures Configure(Contributions(documentRoot, modules, fileExists), {}, load).invoked
         == ClosuresOf(Contributions(documentRoot, modules, fileExists), load)
  {
    var routes := Contributions(documentRoot, modules, fileExists);
    ContributionsDistinct(documentRoot, modules, fileExists);
    FreshRoutesInvokeTheirClosures(routes, {}, load);
  }
}
